=== FILE: README.md ===
# historia — a Dafny model of the event-sourcing core

historia is an event-sourcing engine written in Go. An aggregate root records
domain events as it changes. A repository stores those events in an event
store, optionally saves snapshots of the aggregate's state, rebuilds an
aggregate from its latest snapshot plus the stored events that follow it, and
publishes newly saved events to subscribers through an event stream. This
project models that core in Dafny and proves what each operation promises.

One module per Go file:

| module | Go file | form |
|---|---|---|
| `Errors` | sentinel errors of every core file | datatypes `Error`, `Outcome` (Go's `error`), `Result<T>` (Go's `(T, error)`), `Option<T>` |
| `Events` | `event.go` | `Event` value and its `Reason` |
| `Aggregates` | `aggregate.go` | class `AggregateRoot` with the root's fields updated in place |
| `EventStore` | `eventstore/eventstore.go` | `ValidateEvents` as a loop proved against the recursive `Validation` |
| `EventStoreMemory` | `eventstore/memory/memory.go` | class `Memory` holding the per-aggregate buckets and the global log |
| `Stream` | `eventstream.go` | classes `EventStream` (four subscriber indices) and `Subscription` |
| `Snapshots`, `SnapshotMemory` | `snapper.go` (Snapshot record), `snapshot/memory/memory.go` | `Snapshot` value, class `Memory` keyed by `id_type` |
| `Snapshotting` | `snapper.go` | class `Snapper` over a marshaller and a snapshot store |
| `Repository` | `repository.go` | class `Repo` over an event stream, an event store and an optional snapper |
| `EventRegistry` | `event_registry.go` | class `EventRegister` holding payload factories by name |
| `AggregateFactory` | `aggregate_factory.go` | class `AggFactory` holding constructor delegates by type name |

How Go features are modelled:

- Reflection is replaced by explicit tags. An event payload is `Nil` or a
  `Value(pkgPath, name, shape)`, where the shape is a direct value, a non-nil
  pointer or a typed nil pointer. An aggregate carries its type name as
  `typeName`; its snapshot type key is `FormatAggregatePathType(typeName)`,
  the root package path, '.', and the type name.
- Aggregate behaviour that the user supplies (the `Transition` method and the
  optional `SnapshotTaker` capability) is represented by a log of inputs,
  `AggregateRoot.inputs`. The log records every event transitioned and every
  snapshot body applied. The capability is an optional pair of functions
  `Taker(take, apply)`: `take` computes a body from that log, and `apply`
  decides whether a body is accepted.
- Event handlers are functions `Event -> Outcome`. `EventStream.Update`
  returns, beside the error, the deliveries it made in order. Its contract
  says that these are exactly the prefix of the delivery plan up to the first
  failing handler.
- The marshaller is a pair of functions returning `Result`s. `Lossless`
  names the round trip that `RestoreAfterCapture` assumes: whatever is
  encoded decodes back to the same body.
- New ids and the current time are parameters (`freshID`, `now`).

`Repo.Save` returns the publishing error before it calls `update()`
(repository.go:121-123). A failed dispatch therefore leaves the root's
version and pending events as they were, while the events stay in the store.

`AggFactory` in the code depends on an `AggregateRepository` interface whose
`Get(id, aggregate)` has no context parameter. `Repo.Get` takes one. The
model wires the factory to a `Repo` directly and states the factory's result
in terms of the repository's `Load`.

## Model

| member | source | states |
|---|---|---|
| Events.Reason | event.go:32-37 | the reason is empty exactly when the payload is nil or its type is unnamed; otherwise it is the payload type's name, whether pointer or typed nil |
| Aggregates.Transitions | aggregate.go:88-94 | the inputs that replaying a history feeds to the aggregate are that history's events, in order |
| Aggregates.AggregateRoot.constructor | aggregate.go:19-23 | a new root has the given id, version 0, no pending events and no inputs |
| Aggregates.AggregateRoot.SetID | aggregate.go:31-37 | a root with an id refuses a new one with ErrAggregateAlreadyExists and keeps its id; a root without one takes it; nothing else changes |
| Aggregates.AggregateRoot.Version | aggregate.go:40-46 | with pending events the reported version is the last pending event's version, otherwise the stored version |
| Aggregates.AggregateRoot.Events | aggregate.go:50-54 | returns the pending events without changing the root |
| Aggregates.AggregateRoot.HasUnsavedEvents | aggregate.go:57-59 | true exactly when events are pending |
| Aggregates.AggregateRoot.NextVersion | aggregate.go:107-109 | the next event's version is one past the last pending event's, or one past the stored version when nothing is pending; it is never 0 |
| Aggregates.AggregateRoot.TrackChangeWithMetadata | aggregate.go:68-85 | an empty id becomes the fresh id; exactly one event is appended, carrying the root's id, type name, current version + 1, the given time, payload and metadata; the aggregate transitions on it; pending events keep consecutive versions |
| Aggregates.AggregateRoot.TrackChange | aggregate.go:62-64 | the same as TrackChangeWithMetadata with empty metadata |
| Aggregates.AggregateRoot.BuildFromHistory | aggregate.go:88-94 | every historical event is transitioned, in order; the id and version end as those of the last event; no event becomes pending |
| Aggregates.AggregateRoot.SetInternals | aggregate.go:101-105 | id and version are set and the pending events are cleared |
| Aggregates.AggregateRoot.Update | aggregate.go:113-121 | the stored version becomes the last pending event's version, so Version() is unchanged; pending events are cleared |
| EventStore.Check | eventstore/eventstore.go:27-45 | one event passes exactly when its id and type match, its version is current + 1 and its reason is non-empty; a foreign id is reported as ErrEventMultipleAggregates whatever else is wrong |
| EventStore.ValidateEvents | eventstore/eventstore.go:24-47 | the loop returns the recursive Validation's verdict, and passes exactly when the batch is acceptable |
| EventStore.ValidationIffAcceptable | eventstore/eventstore.go:24-47 | a batch passes exactly when every event has the aggregate's id, the first event's type, version current + 1 + its index, and a reason |
| EventStore.ValidationSkipsAcceptedPrefix | eventstore/eventstore.go:27-45 | after an acceptable prefix, the verdict is that of the rest validated from the prefix's last version |
| EventStore.FirstBadEventDecides | eventstore/eventstore.go:27-45 | the error returned is the first check failed by the first event that fails one |
| EventStore.VersionMismatchIsConcurrency | eventstore/eventstore.go:36-44 | after an acceptable prefix of k events, an event with matching id and type whose version is not current + k + 1 (a gap, a duplicate or a step back) gives ErrConcurrency |
| EventStore.ForeignIDIsMultipleAggregates | eventstore/eventstore.go:28-30 | an event of another aggregate after an acceptable prefix gives ErrEventMultipleAggregates |
| EventStore.ForeignTypeIsMultipleAggregateTypes | eventstore/eventstore.go:32-34 | an event of another type, with matching id, after an acceptable prefix gives ErrEventMultipleAggregateTypes |
| EventStore.MissingReasonIsReasonMissing | eventstore/eventstore.go:40-42 | an otherwise valid event with a nil payload after an acceptable prefix gives ErrReasonMissing |
| EventStoreMemory.AggregateKey | eventstore/memory/memory.go:87-89 | the bucket key is the aggregate type, then '_', then the aggregate id |
| EventStoreMemory.CurrentVersion | eventstore/memory/memory.go:38-46 | an empty bucket is at version 0, a non-empty one at its last event's version |
| EventStoreMemory.AfterMembers | eventstore/memory/memory.go:66-72 | an event is returned exactly when it is stored and newer than the bound |
| EventStoreMemory.AfterContiguous | eventstore/memory/memory.go:60-79 | in a gap-free bucket, reading after version v yields the suffix from index v |
| EventStoreMemory.AppendValidatedKeepsContiguous | eventstore/memory/memory.go:48-55 | appending a batch that passed validation keeps the bucket gap-free |
| EventStoreMemory.Memory.constructor | eventstore/memory/memory.go:11-17 | a new store has no buckets and an empty global log |
| EventStoreMemory.Memory.SaveEvents | eventstore/memory/memory.go:27-57 | an empty batch is accepted and changes nothing; otherwise the verdict is the validation against the bucket's current version; a rejected batch changes nothing; an accepted one is appended to its bucket and to the global log, and buckets stay gap-free |
| EventStoreMemory.Memory.GetEvents | eventstore/memory/memory.go:60-79 | returns the aggregate's events newer than the bound, or ErrNoEvents when there are none |
| Stream.InstanceKeyDistinguishes | eventstream.go:246-251 | for type names without '#', two instance keys are equal exactly when the type names and ids are |
| Stream.FormatAggregatePathType | eventstream.go:239-244 | the aggregate-type key is the root package path, then '.', then the type name |
| Stream.FormatAggregatePathNameID | eventstream.go:246-251 | the instance key is the aggregate-type key, then '#', then the id |
| Stream.RemoveFirstAt | eventstream.go:85-90 | removing the first occurrence drops the element at the first index holding it and keeps the others in order |
| Stream.RemoveFirstAbsent | eventstream.go:85-90 | removing a subscription that is not listed leaves the list as it is |
| Stream.AppendAllLookup | eventstream.go:124-127 | subscribing under several keys appends the subscription once per occurrence of a key, and touches no other key |
| Stream.RemoveAllLookup | eventstream.go:110-118 | unsubscribing under several keys removes one occurrence per occurrence of a key, and touches no other key |
| Stream.SubscribeThenUnsubscribeRestores | eventstream.go:102-130 | subscribing and then unsubscribing a subscription that was not listed restores every key's list |
| Stream.AppendAllOrigin | eventstream.go:124-127 | after subscribing, every listed subscription was listed before or is the new one |
| Stream.RemoveFirstSubset | eventstream.go:85-90 | removal never adds a subscription |
| Stream.RemoveAllOrigin | eventstream.go:110-118 | after unsubscribing under several keys, every listed subscription was listed before |
| Stream.DeliverStopsAtFirstFailure | eventstream.go:194-201 | handlers run in plan order and stop at the first failure; the result passes exactly when every planned handler ran and passed, and otherwise is the last run handler's error |
| Stream.DeliverAppend | eventstream.go:52-72 | delivering two plans in a row equals delivering their concatenation |
| Stream.AppendUnder | eventstream.go:124-127 | the subscribe loop over keys computes AppendAll |
| Stream.RemoveUnder | eventstream.go:110-118 | the unsubscribe loop over keys computes RemoveAll |
| Stream.Splice | eventstream.go:85-90 | the splice loop computes RemoveFirst |
| Stream.Unlist | eventstream.go:112-116 | the list under a key loses the first occurrence of the subscription; a missing key stays missing |
| Stream.Position | eventstream.go:85-90 | reports the first index holding the subscription, or that there is none |
| Stream.Subscription.constructor | eventstream.go:21-25 | a subscription holds its stream, its handler and what it listens to |
| Stream.Subscription.Subscribe | eventstream.go:33-35 | the subscription is appended under each key of its target (once per listed key), every other index is unchanged, and the stream stays sound |
| Stream.Subscription.SubscribeKeepsSound | eventstream.go:77-192 | subscribing keeps every index holding only subscriptions of its own kind |
| Stream.Subscription.Unsubscribe | eventstream.go:28-30 | the first occurrence is removed from the all-events list, or one occurrence under each key of the target; other indices are unchanged |
| Stream.Subscription.UnsubscribeKeepsSound | eventstream.go:77-192 | unsubscribing keeps every index sound |
| Stream.EventStream.constructor | eventstream.go:11-18 | a new stream has four empty indices |
| Stream.EventStream.SubscriberAll | eventstream.go:77-99 | returns a fresh, not yet listed subscription for all events; the indices are unchanged |
| Stream.EventStream.SubscriberSpecificAggregate | eventstream.go:102-130 | returns a fresh subscription for the given instances; the indices are unchanged |
| Stream.EventStream.SubscriberAggregateType | eventstream.go:133-161 | returns a fresh subscription for the given aggregate types; the indices are unchanged |
| Stream.EventStream.SubscriberSpecificEvent | eventstream.go:164-192 | returns a fresh subscription for the given payload types; the indices are unchanged |
| Stream.EventStream.PlanConcat | eventstream.go:52-72 | the plan for a concatenation of batches is the concatenation of their plans |
| Stream.EventStream.PlanMember | eventstream.go:52-72 | every planned delivery pairs an event of the batch with one of its recipients |
| Stream.EventStream.OnlyRegisteredPayloadTypes | eventstream.go:203-213 | a payload-type subscriber receives an event only when it is listed under the event's payload type |
| Stream.EventStream.OnlyRegisteredAggregateTypes | eventstream.go:215-225 | an aggregate-type subscriber receives an event only when it is listed under the aggregate's type key |
| Stream.EventStream.OnlyListedInstances | eventstream.go:227-237 | an instance subscriber receives an event only when it is listed under the aggregate's instance key |
| Stream.EventStream.Notify | eventstream.go:194-201 | the handlers of a list run in order until one fails, and that error is returned |
| Stream.EventStream.UpdateAll | eventstream.go:194-201 | delivers the event to the all-events subscribers |
| Stream.EventStream.UpdateSpecificEvent | eventstream.go:203-213 | delivers the event to the subscribers of its payload type; a nil payload reaches the subscribers listed under the nil type |
| Stream.EventStream.UpdateSpecificAggregateEvents | eventstream.go:215-225 | delivers the event to the subscribers of the aggregate's type key |
| Stream.EventStream.UpdateSpecificAggregate | eventstream.go:227-237 | delivers the event to the subscribers of the aggregate's instance key |
| Stream.EventStream.UpdateEvent | eventstream.go:53-71 | one event goes to the four groups in the source's order, stopping at the first failure |
| Stream.EventStream.RecipientsInOrder | eventstream.go:52-72 | an event's recipients are the all-events, payload-type, aggregate-type and instance lists, in that order |
| Stream.EventStream.Update | eventstream.go:48-74 | the deliveries made are the whole plan (every event to its recipients, event by event) up to the first failing handler, whose error is returned |
| Stream.EventStream.PlanExtend | eventstream.go:52-72 | the plan for one more event extends the plan for the events before it |
| Stream.EventStream.PlanStopsAt | eventstream.go:54-70 | a failure while delivering one event stops the delivery of the whole batch |
| Stream.StopsAtFailure | eventstream.go:54-70 | once a dispatch has failed, later stages make no calls and keep its error |
| Stream.ThenDeliver | eventstream.go:52-72 | a passed dispatch followed by a delivery equals delivering both plans together |
| SnapshotMemory.Stored | snapshot/memory/memory.go:22-29 | a stored key returns its snapshot; a missing key gives ErrSnapshotNotFound |
| SnapshotMemory.FormatSnapshotKey | snapshot/memory/memory.go:37-39 | the snapshot key is the id, then '_', then the type key |
| SnapshotMemory.GetAfterSave | snapshot/memory/memory.go:31-35 | reading a snapshot back after saving it returns it |
| SnapshotMemory.KeysCanCollide | snapshot/memory/memory.go:37-39 | the key format is not injective: distinct id/type pairs can share a key |
| SnapshotMemory.Memory.constructor | snapshot/memory/memory.go:10-14 | a new store is empty |
| SnapshotMemory.Memory.Get | snapshot/memory/memory.go:22-29 | returns the snapshot stored under the id and type key, or ErrSnapshotNotFound |
| SnapshotMemory.Memory.Save | snapshot/memory/memory.go:31-35 | always succeeds and stores the snapshot under its key, replacing any earlier one |
| Snapshotting.Validate | snapper.go:114-124 | a missing id gives ErrAggregateMissingID before pending events give ErrUnsavedEvents; otherwise it passes |
| Snapshotting.Restorable | snapper.go:55-69 | no snapshot capability gives ErrAggregateDoesntSupportSnapshots; a store miss or an unmarshal failure passes its error through; otherwise the stored snapshot and its decoded body |
| Snapshotting.Capture | snapper.go:80-110 | validation errors first, then the capability error; a nil body saves nothing; otherwise a marshal failure passes its error through, and a successful encoding always yields a snapshot record with the root's id, time, type, encoded body and version |
| Snapshotting.RestoreAfterCapture | snapper.go:54-111 | with a lossless marshaller, restoring what was captured gives back the captured body, id and version |
| Snapshotting.Snapper.constructor | snapper.go:41-46 | the snapper holds the given store and marshaller |
| Snapshotting.Snapper.ApplySnapshot | snapper.go:54-78 | on a retrieval or decoding failure, returns it and leaves the root unchanged; otherwise the body is applied; if it is refused, that error is returned and id, version and events are kept; else the root takes the snapshot's id and version with no pending events |
| Snapshotting.Snapper.SaveSnapshot | snapper.go:80-111 | the outcome is Capture's; a captured record is stored under its key, and otherwise the store is unchanged |
| Repository.Repo.constructor | repository.go:68-74 | a repository over a fresh empty event stream, the given store and optional snapper |
| Repository.Repo.Get | repository.go:86-111 | the error and the root's new state are those of Load: snapshot (if a snapper is set; only ErrSnapshotNotFound is tolerated), then the stored events after the root's version, ErrAggregateNotFound when none, else replay |
| Repository.Repo.ReplayStored | repository.go:95-110 | reads the stored events after the root's version and replays them, or reports ErrAggregateNotFound |
| Repository.Repo.LoadReplaysOnlyNewerEvents | repository.go:95-109 | a successful load replays exactly the stored events newer than the version restored from the snapshot |
| Repository.Repo.LoadFreshReplaysAll | repository.go:95-110 | without a snapper, a fresh root over a gap-free bucket is rebuilt from all its events and ends at the last one's version |
| Repository.Repo.Save | repository.go:114-128 | an empty batch leaves the store unchanged; a store rejection is returned with no deliveries and nothing changed; otherwise the events are appended to their own bucket and to the global log, every other bucket is kept, the events are delivered as Update plans, and only when every handler passes is the root committed (no pending events, same Version()) |
| Repository.Repo.Publish | repository.go:121-126 | the deliveries are the Update plan of the pending events up to the first failing handler; on a failure the root is untouched, otherwise its pending events are committed (none left, the stored version is the last one's, Version() unchanged) |
| Repository.Repo.SaveSnapshot | repository.go:131-137 | without a snapper, ErrNoSnapShotInitialized; otherwise the snapper's outcome |
| EventRegistry.DefaultNameDistinguishes | event_registry.go:137-144 | for package paths without '#', equal default names mean equal package paths and type names |
| EventRegistry.DefaultName | event_registry.go:137-144 | the default name is the package path, then '#', then the type name; it does not depend on whether the payload is held by pointer |
| EventRegistry.Created | event_registry.go:122-131 | a registered name yields its factory's product; an unknown name gives ErrEventDataFactoryNotRegistered |
| EventRegistry.EventRegister.constructor | event_registry.go:43-54 | no factories; the formatter is the default unless options set one, and the last option wins |
| EventRegistry.EventRegister.GetName | event_registry.go:133-135 | the name is the configured formatter applied to the payload |
| EventRegistry.EventRegister.Register | event_registry.go:90-108 | a nil or non-pointer factory product is refused with ErrFactoryShouldReturnValidPointer and nothing changes; an already registered name keeps its first factory; otherwise the factory is added under its name |
| EventRegistry.EventRegister.Unregister | event_registry.go:110-120 | the factory under the payload's name is removed, whether or not it was there |
| EventRegistry.EventRegister.Create | event_registry.go:122-131 | returns Created for the current factories without changing them |
| EventRegistry.EventRegister.CreateAfterRegister | event_registry.go:101-106 | after registering a new name, creating by that name yields the registered product |
| EventRegistry.EventRegister.CreateAfterUnregister | event_registry.go:114-130 | after unregistering, creating by that name fails with ErrEventDataFactoryNotRegistered |
| AggregateFactory.AggFactory.constructor | aggregate_factory.go:29-34 | a factory over the given repository with no delegates |
| AggregateFactory.AggFactory.RegisterDelegate | aggregate_factory.go:48-61 | a nil-returning delegate gives ErrDelegateFuncNotValid, a taken type name ErrDelegateAlreadyRegistered, both changing nothing; otherwise the delegate is added under its type name |
| AggregateFactory.AggFactory.Get | aggregate_factory.go:65-84 | a nil type gives ErrAggregateNotValid, an unregistered one ErrDelegateNotRegistered; otherwise the aggregate the delegate builds for the id, in whatever state the delegate gives it, is loaded through the repository; any load error except ErrAggregateNotFound yields no aggregate |

## Left out

- Concurrency: the event stream, the in-memory event store and the event registry each hold a mutex (eventstream.go:44, eventstore/memory/memory.go:23, event_registry.go:86); these are not modelled. The in-memory snapshot store has no mutex and is not safe for concurrent use in Go; the model does not show that either. Every operation runs alone, so the model also does not show a handler deadlocking by re-entering the stream.
- `context.Context` arguments and `Memory.Close` (eventstore/memory/memory.go:82-84), which always returns nil, are not modelled.
- Versions are unbounded naturals: uint64 wrap-around at 2^64 events is not modelled.
- Reflection: payload types are explicit tags with at most one level of pointer; pointer-to-pointer payloads and types without a name beyond the empty string are not modelled.
- Events.Reason: requires a pointer or nil payload (`Reasonable`), because Go's `Elem()` panics on a direct value whose kind is not an array, channel, map, pointer or slice. The model's `Direct` shape does not tell collections from other values, so direct collection payloads, for which Go returns the element type's name, are excluded as well. The same precondition carries to ValidateEvents, SaveEvents and Repo.Save.
- The default event-name formatter is only defined for non-nil payloads, because Go's version would panic on nil.
- The JSON marshaller is an abstract pair of functions; its encoding is not modelled.
- Snapshotting.RestoreAfterCapture: holds for a lossless marshaller, where the restored body is exactly the captured one. Go's `ApplySnapshot` (snapper.go:66-73) decodes into an empty interface, so the aggregate receives a generic JSON decoding (maps and float64 numbers, large integers rounded) rather than the typed value it took; the model does not capture that loss.
- The id generator and clock (id.go, time.go) are parameters of the operations that use them.
- Aggregate user code (Transition, TakeSnapshot, ApplySnapshot bodies) is represented by an input log and the `Taker` functions; what an aggregate does with an event is not modelled.
- Event and snapshot stores other than the in-memory ones, and therefore arbitrary store errors, are not modelled. With these adapters, only ErrNoEvents and ErrSnapshotNotFound can come from a read, and a snapshot save never fails.
- The package-level `DefaultRegistry`, `RegisterAllOf` and the wrapper functions around it are not modelled.
- EventRegistry.EventRegister.Create: returns the factory's product value; Go returns a fresh pointer on each call, and that identity is not modelled.
- AggregateFactory.AggFactory.RegisterDelegate: a delegate's returning nil is a property of the delegate, independent of the id; Go probes it with a placeholder id, and a delegate that returns nil only for other ids would make `Get` panic when the repository has no snapper (with a snapper, the nil aggregate lacks the snapshot capability, so `Get` fails with ErrAggregateDoesntSupportSnapshots and the factory returns no aggregate). That case is not modelled.
- AggregateFactory.AggFactory.Get: a delegate is registered under the type its probe returns, and the model takes every aggregate it builds to be of that type with the same snapshot capability; a Go delegate that returns different types for different ids is not modelled. The state it builds (id, version, pending events) is arbitrary, as in Go.
- The factory's `AggregateRepository` dependency is a `Repo` rather than an interface.
- Aggregates.AggregateRoot.TrackChangeWithMetadata: the aggregate argument is taken to be the root's own aggregate, so its type name is the root's `typeName`.
- Stream.EventStream.OnlyListedInstances: states that a recipient is listed under the published aggregate's instance key, not that it subscribed with that aggregate, because the key is computed from the aggregate's id at subscription time and ids can change later.
- Key formats: `aggregateKey` and `formatSnapshotKey` join with `_` and are not injective (KeysCanCollide); the model does not claim separation between buckets whose keys collide.
- EventStoreMemory.Memory.SaveEvents: requires its buckets to be gap-free (`Valid`), which holds for every store built only through `SaveEvents`.
- The global `allEvents` log of the in-memory store is kept but never read, as in the source.

=== FILE: aggregate.dfy ===
/** The aggregate state tracker (aggregate.go). */
module Aggregates {
  import opened Errors
  import opened Events

  /** An opaque snapshot body: the value an aggregate's `TakeSnapshot`
      returns and its `ApplySnapshot` accepts. */
  datatype Body = Body(content: seq<int>)

  /** A call into the aggregate's own code: `Transition(event)` or
      `ApplySnapshot(body)`. The aggregate's domain state is whatever its own
      code makes of the sequence of these calls. */
  datatype Input = Transitioned(event: Event) | Restored(body: Body)

  /** The optional `SnapshotTaker` capability: what `TakeSnapshot` returns for
      a given domain state (`None` for nil) and what `ApplySnapshot` returns
      for a given body. */
  datatype Taker = Taker(take: seq<Input> -> Option<Body>, apply: Body -> Outcome)

  /** The `Transition` calls made for `history`, in order. */
  function Transitions(history: seq<Event>): (r: seq<Input>)
    ensures |r| == |history|
    ensures forall i :: 0 <= i < |history| ==> r[i] == Transitioned(history[i])
  {
    if history == [] then []
    else Transitions(history[..|history| - 1]) + [Transitioned(history[|history| - 1])]
  }

  /** A user aggregate together with its embedded `AggregateRoot` (also
      called `AggregateBase`): the root's three fields, the aggregate's type
      name, its optional snapshot capability, and the log of calls into its
      own code. */
  class AggregateRoot {
    const typeName: string
    const taker: Option<Taker>
    var id: string
    var version: Version
    var events: seq<Event>
    var inputs: seq<Input>

    /** Pending events are numbered `version + 1, version + 2, ...` in order. */
    ghost predicate PendingRun()
      reads this
    {
      forall i :: 0 <= i < |events| ==> events[i].version == version + i + 1
    }

    /** A root whose id is `id` (the empty string for a zero root). */
    constructor (typeName: string, taker: Option<Taker>, id: string)
      ensures this.typeName == typeName && this.taker == taker
      ensures this.id == id && version == 0 && events == [] && inputs == []
      ensures PendingRun() && Version() == 0
    {
      this.typeName := typeName;
      this.taker := taker;
      this.id := id;
      version := 0;
      events := [];
      inputs := [];
    }

    /** Assigns the id once; a second assignment fails and keeps the id. */
    method SetID(newID: string) returns (err: Outcome)
      modifies this`id
      ensures old(id) != "" ==> err == Fail(AggregateAlreadyExists) && id == old(id)
      ensures old(id) == "" ==> err == Pass && id == newID
    {
      if id != "" {
        return Fail(AggregateAlreadyExists);
      }
      id := newID;
      return Pass;
    }

    /** The version including pending events. */
    function Version(): (v: Version)
      reads this
      ensures events == [] ==> v == version
      ensures events != [] ==> v == events[|events| - 1].version
    {
      if |events| == 0 then version else events[|events| - 1].version
    }

    /** A copy of the pending events (sequences are values in Dafny, so the
        caller cannot reach the internal list through it). */
    method Events() returns (es: seq<Event>)
      ensures es == events
    {
      es := events;
    }

    function HasUnsavedEvents(): (b: bool)
      reads this
      ensures b <==> events != []
    {
      |events| > 0
    }

    /** The version the next tracked event gets: one past the last pending
        event, or past the stored version when nothing is pending. */
    function NextVersion(): (v: Version)
      reads this
      ensures v > 0
      ensures events == [] ==> v == version + 1
      ensures events != [] ==> v == events[|events| - 1].version + 1
    {
      Version() + 1
    }

    /** Records `data` as a new pending event and applies it. `freshID` is
        what the id generator would return and `now` what the clock reads. */
    method TrackChangeWithMetadata(data: EventData, metadata: Metadata, freshID: string, now: Time)
      modifies this`id, this`events, this`inputs
      ensures id == if old(id) == "" then freshID else old(id)
      ensures version == old(version)
      ensures var e := Event(id, typeName, old(Version()) + 1, now, data, metadata);
              events == old(events) + [e] && inputs == old(inputs) + [Transitioned(e)]
      ensures Version() == old(Version()) + 1
      ensures old(PendingRun()) ==> PendingRun()
    {
      if id == "" {
        id := freshID;
      }
      var event := Event(id, typeName, NextVersion(), now, data, metadata);
      events := events + [event];
      inputs := inputs + [Transitioned(event)];
    }

    /** `TrackChangeWithMetadata` with empty metadata (Go's nil map reads as empty). */
    method TrackChange(data: EventData, freshID: string, now: Time)
      modifies this`id, this`events, this`inputs
      ensures id == if old(id) == "" then freshID else old(id)
      ensures version == old(version)
      ensures var e := Event(id, typeName, old(Version()) + 1, now, data, map[]);
              events == old(events) + [e] && inputs == old(inputs) + [Transitioned(e)]
      ensures Version() == old(Version()) + 1
      ensures old(PendingRun()) ==> PendingRun()
    {
      TrackChangeWithMetadata(data, map[], freshID, now);
    }

    /** Replays `history` in the given order; id and version follow the last
        event replayed. Pending events are not touched. */
    method BuildFromHistory(history: seq<Event>)
      modifies this`id, this`version, this`inputs
      ensures events == old(events)
      ensures history == [] ==> id == old(id) && version == old(version)
      ensures history != [] ==>
        id == history[|history| - 1].aggregateID && version == history[|history| - 1].version
      ensures inputs == old(inputs) + Transitions(history)
    {
      var i := 0;
      while i < |history|
        invariant 0 <= i <= |history|
        invariant events == old(events)
        invariant i == 0 ==> id == old(id) && version == old(version)
        invariant i > 0 ==> id == history[i - 1].aggregateID && version == history[i - 1].version
        invariant inputs == old(inputs) + Transitions(history[..i])
      {
        assert history[..i + 1][..i] == history[..i];
        inputs := inputs + [Transitioned(history[i])];
        id := history[i].aggregateID;
        version := history[i].version;
        i := i + 1;
      }
      assert history[..i] == history;
    }

    /** Resets the root after a snapshot has been applied. */
    method SetInternals(newID: string, newVersion: Version)
      modifies this`id, this`version, this`events
      ensures id == newID && version == newVersion && events == []
      ensures Version() == newVersion && PendingRun()
    {
      id := newID;
      version := newVersion;
      events := [];
    }

    /** Commits pending events after a save: the stored version takes the
        last pending version and the list is cleared, so `Version()` is the
        same before and after. */
    method Update()
      modifies this`version, this`events
      ensures old(events) == [] ==> version == old(version) && events == []
      ensures old(events) != [] ==> version == old(events)[|old(events)| - 1].version
      ensures events == [] && Version() == old(Version()) && PendingRun()
    {
      if |events| == 0 {
        return;
      }
      var last := events[|events| - 1];
      version := last.version;
      events := [];
    }
  }
}

=== FILE: aggregate_factory.dfy ===
/** The aggregate factory (aggregate_factory.go): delegates that build an
    aggregate of one type for an id, and loading through the repository. */
module AggregateFactory {
  import opened Errors
  import opened Aggregates
  import opened Repository

  /** A `func(id string) Aggregate`: whether it returns nil, the type of the
      aggregate it builds, that type's snapshot capability, and the root
      state (id, version, pending events, inputs) it builds for each id,
      which may already differ from a zero root. */
  datatype Delegate = Delegate(returnsNil: bool, typeName: string, taker: Option<Taker>, build: string -> RootState)

  class AggFactory {
    const repository: Repo
    var delegates: map<string, Delegate>

    /** Every registered delegate builds aggregates, of the type it is
        registered under. */
    ghost predicate Valid()
      reads this
    {
      forall name :: name in delegates ==> !delegates[name].returnsNil && delegates[name].typeName == name
    }

    constructor (repository: Repo)
      ensures this.repository == repository && delegates == map[] && Valid()
    {
      this.repository := repository;
      delegates := map[];
    }

    /** Registers `delegate` under the type of the aggregate it builds; a
        delegate that returns nil, or a second one for the same type, is
        refused and the map is unchanged. */
    method RegisterDelegate(delegate: Delegate) returns (err: Outcome)
      requires Valid()
      modifies this`delegates
      ensures Valid()
      ensures delegate.returnsNil ==> err == Fail(DelegateFuncNotValid) && delegates == old(delegates)
      ensures !delegate.returnsNil && delegate.typeName in old(delegates) ==>
        err == Fail(DelegateAlreadyRegistered) && delegates == old(delegates)
      ensures !delegate.returnsNil && delegate.typeName !in old(delegates) ==>
        err == Pass && delegates == old(delegates)[delegate.typeName := delegate]
    {
      if delegate.returnsNil {
        return Fail(DelegateFuncNotValid);
      }
      var typeName := delegate.typeName;
      if typeName in delegates {
        return Fail(DelegateAlreadyRegistered);
      }
      delegates := delegates[typeName := delegate];
      return Pass;
    }

    /** Builds an aggregate of `agType`'s type for `id` with the registered
        delegate, in whatever state the delegate gives it, and loads it through the repository. A load that finds
        nothing still returns the new aggregate; any other load error
        returns none. */
    method Get(agType: AggregateRoot?, id: string) returns (aggregate: AggregateRoot?, err: Outcome)
      requires Valid()
      ensures agType == null ==> aggregate == null && err == Fail(AggregateNotValid)
      ensures agType != null && agType.typeName !in delegates ==>
        aggregate == null && err == Fail(DelegateNotRegistered)
      ensures agType != null && agType.typeName in delegates ==>
        var d := delegates[agType.typeName];
        var r := repository.Load(id, d.typeName, d.taker, d.build(id));
        && (r.outcome.Fail? && r.outcome.error != AggregateNotFound ==> aggregate == null && err == r.outcome)
        && (r.outcome.Pass? || r.outcome.error == AggregateNotFound ==>
              && aggregate != null && fresh(aggregate) && err == Pass
              && aggregate.typeName == agType.typeName && aggregate.taker == d.taker
              && Root(aggregate) == r.root)
    {
      if agType == null {
        return null, Fail(AggregateNotValid);
      }
      var name := agType.typeName;
      if name !in delegates {
        return null, Fail(DelegateNotRegistered);
      }
      var d := delegates[name];
      var built := d.build(id);
      aggregate := new AggregateRoot(d.typeName, d.taker, built.id);
      aggregate.version, aggregate.events, aggregate.inputs := built.version, built.events, built.inputs;
      err := repository.Get(id, aggregate);
      if err.Fail? && err.error != AggregateNotFound {
        return null, err;
      }
      return aggregate, Pass;
    }
  }
}

=== FILE: errors.dfy ===
/** The sentinel errors of the event-sourcing engine, and the wrappers its
    operations return instead of Go's `error` results. */
module Errors {

  /** Every sentinel error the core declares, plus `Foreign` for an error
      produced by code outside the model (a codec, a domain method). */
  datatype Error =
    // event.go
    | NoEvents
    | NoMoreEvents
    // aggregate.go
    | AggregateAlreadyExists
    // eventstore/eventstore.go
    | EventMultipleAggregates
    | EventMultipleAggregateTypes
    | Concurrency
    | ReasonMissing
    // snapper.go
    | AggregateMissingID
    | UnsavedEvents
    | AggregateDoesntSupportSnapshots
    // repository.go
    | NoSnapShotInitialized
    | SnapshotNotFound
    | AggregateNotFound
    // event_registry.go
    | FactoryShouldReturnValidPointer
    | EventDataFactoryNotRegistered
    // aggregate_factory.go
    | DelegateAlreadyRegistered
    | DelegateNotRegistered
    | DelegateFuncNotValid
    | AggregateNotValid
    | Foreign(message: string)

  /** A Go `error` result: nil (`Pass`) or an error. */
  datatype Outcome = Pass | Fail(error: Error)

  /** A Go `(value, error)` pair where exactly one side is meaningful. */
  datatype Result<T> = Ok(value: T) | Err(error: Error)

  datatype Option<T> = None | Some(value: T)
}

=== FILE: event.dfy ===
/** The event record shared by every component (event.go). */
module Events {

  /** Go's `Version` is a uint64; wrap-around at 2^64 is not modelled. */
  type Version = nat

  /** Timestamps are stored but never interpreted. */
  type Time = int

  /** `EventMetadata` is stored but never interpreted. */
  type Metadata = map<string, string>

  /** How a non-nil payload is held in the `Data` interface: a struct value,
      a pointer to a struct, or a typed nil pointer. */
  datatype Shape = Direct | Pointer | NilPointer

  /** The dynamic type of an `EventData` value, reduced to the facts the core
      reads by reflection: the package path and name of the (pointed-to)
      type, and how it is held. */
  datatype EventData = Nil | Value(pkgPath: string, name: string, shape: Shape)

  datatype Event = Event(
    aggregateID: string,
    aggregateType: string,
    version: Version,
    timestamp: Time,
    data: EventData,
    metadata: Metadata)

  /** `Reason` dereferences the payload's type; on a payload held directly
      (not through a pointer) that dereference panics. */
  predicate Reasonable(d: EventData) {
    d.Nil? || d.shape != Direct
  }

  /** The name of the payload's type, or "" when there is no payload. */
  function Reason(e: Event): (r: string)
    requires Reasonable(e.data)
    ensures r == "" <==> e.data.Nil? || e.data.name == ""
    ensures e.data.Value? ==> r == e.data.name
  {
    if e.data.Nil? then "" else e.data.name
  }
}

=== FILE: event_registry.dfy ===
/** The payload registry (event_registry.go): payload factories keyed by a
    name that a formatter derives from a payload. */
module EventRegistry {
  import opened Errors
  import opened Events

  /** A `func() EventData`, reduced to the payload it produces. */
  datatype Factory = Factory(product: EventData)

  /** The registry's name formatter: the default one, or the last one given
      by option. */
  datatype NameFormatter = DefaultFormatter | Custom(format: EventData -> string)

  /** The default name `pkgPath + "#" + name` of the payload's type, after
      dereferencing pointers, so a value and a pointer of the same type share
      it; it is undefined for a nil payload. */
  function DefaultName(d: EventData): (n: string)
    requires d.Value?
    ensures |n| == |d.pkgPath| + 1 + |d.name|
    ensures n[..|d.pkgPath|] == d.pkgPath && n[|d.pkgPath|] == '#' && n[|d.pkgPath| + 1..] == d.name
  {
    d.pkgPath + "#" + d.name
  }

  /** A payload can be named: the default formatter needs a typed payload. */
  predicate Nameable(formatter: NameFormatter, d: EventData) {
    formatter.Custom? || d.Value?
  }

  /** A factory must produce a non-nil pointer. */
  predicate ValidPointer(d: EventData) {
    d.Value? && d.shape == Pointer
  }

  /** Package paths contain no '#', so payload types with different package
      paths or names get different default names. */
  lemma DefaultNameDistinguishes(d1: EventData, d2: EventData)
    requires d1.Value? && d2.Value? && '#' !in d1.pkgPath && '#' !in d2.pkgPath
    requires DefaultName(d1) == DefaultName(d2)
    ensures d1.pkgPath == d2.pkgPath && d1.name == d2.name
  {
  }

  /** What `Create(name)` yields from a factory map. */
  function Created(factories: map<string, Factory>, name: string): (r: Result<EventData>)
    ensures r.Ok? <==> name in factories
    ensures r.Ok? ==> r.value == factories[name].product
    ensures r.Err? ==> r.error == EventDataFactoryNotRegistered
  {
    if name in factories then Ok(factories[name].product) else Err(EventDataFactoryNotRegistered)
  }

  class EventRegister {
    var factories: map<string, Factory>
    const formatter: NameFormatter

    /** An empty registry; each option replaces the formatter, so the last
        one given wins, and without options the default formatter is used. */
    constructor (options: seq<EventData -> string>)
      ensures factories == map[]
      ensures formatter == if options == [] then DefaultFormatter else Custom(options[|options| - 1])
    {
      factories := map[];
      var f := DefaultFormatter;
      var i := 0;
      while i < |options|
        invariant 0 <= i <= |options|
        invariant f == if i == 0 then DefaultFormatter else Custom(options[i - 1])
      {
        f := Custom(options[i]);
        i := i + 1;
      }
      formatter := f;
    }

    /** The name under which `data`'s factory is registered. */
    function GetName(data: EventData): (name: string)
      requires Nameable(formatter, data)
      ensures formatter.DefaultFormatter? ==> name == DefaultName(data)
      ensures formatter.Custom? ==> name == formatter.format(data)
    {
      match formatter
      case DefaultFormatter => DefaultName(data)
      case Custom(format) => format(data)
    }

    /** Registers `factory` under its product's name. A product that is not a
        non-nil pointer is refused; a name already present keeps its first
        factory and the call still succeeds. */
    method Register(factory: Factory) returns (err: Outcome)
      modifies this`factories
      ensures !ValidPointer(factory.product) ==>
        err == Fail(FactoryShouldReturnValidPointer) && factories == old(factories)
      ensures ValidPointer(factory.product) ==>
        var name := GetName(factory.product);
        && err == Pass
        && factories == if name in old(factories) then old(factories) else old(factories)[name := factory]
    {
      var data := factory.product;
      if !(data.Value? && data.shape == Pointer) {
        return Fail(FactoryShouldReturnValidPointer);
      }
      var name := GetName(data);
      if name in factories {
        return Pass;
      }
      factories := factories[name := factory];
      return Pass;
    }

    /** Removes the factory registered under `data`'s name, if any. */
    method Unregister(data: EventData)
      requires Nameable(formatter, data)
      modifies this`factories
      ensures factories == old(factories) - {GetName(data)}
    {
      var name := GetName(data);
      if name !in factories {
        return;
      }
      factories := factories - {name};
    }

    method Create(name: string) returns (r: Result<EventData>)
      ensures r == Created(factories, name)
    {
      if name in factories {
        return Ok(factories[name].product);
      }
      return Err(EventDataFactoryNotRegistered);
    }

    /** After a successful registration, creating by the product's name
        yields the product of whichever factory holds the name: the new one,
        unless the name was taken before. */
    lemma CreateAfterRegister(before: map<string, Factory>, factory: Factory)
      requires ValidPointer(factory.product)
      ensures var name := GetName(factory.product);
        var after := if name in before then before else before[name := factory];
        Created(after, name) == Ok(if name in before then before[name].product else factory.product)
    {
    }

    /** After unregistering, creating by that name fails. */
    lemma CreateAfterUnregister(before: map<string, Factory>, data: EventData)
      requires Nameable(formatter, data)
      ensures Created(before - {GetName(data)}, GetName(data)) == Err(EventDataFactoryNotRegistered)
    {
    }
  }
}

=== FILE: eventstore.dfy ===
/** The optimistic-concurrency check applied to a batch of events before it
    is stored (eventstore/eventstore.go). */
module EventStore {
  import opened Errors
  import opened Events

  /** The four checks on one event, in the source's order: aggregate id,
      aggregate type, version `current + 1`, and a non-empty reason. */
  function Check(aggregateID: string, current: Version, aggregateType: string, e: Event): (r: Outcome)
    requires Reasonable(e.data)
    ensures r.Pass? <==> e.aggregateID == aggregateID && e.aggregateType == aggregateType
                         && e.version == current + 1 && Reason(e) != ""
    ensures e.aggregateID != aggregateID ==> r == Fail(EventMultipleAggregates)
  {
    if e.aggregateID != aggregateID then Fail(EventMultipleAggregates)
    else if e.aggregateType != aggregateType then Fail(EventMultipleAggregateTypes)
    else if current + 1 != e.version then Fail(Concurrency)
    else if Reason(e) == "" then Fail(ReasonMissing)
    else Pass
  }

  predicate AllReasonable(events: seq<Event>) {
    forall i :: 0 <= i < |events| ==> Reasonable(events[i].data)
  }

  /** The outcome of validating `events` against `current`: the first failing
      check, each accepted event advancing the current version. */
  function Validation(aggregateID: string, current: Version, aggregateType: string, events: seq<Event>): Outcome
    requires AllReasonable(events)
    decreases |events|
  {
    if events == [] then Pass
    else match Check(aggregateID, current, aggregateType, events[0])
      case Fail(err) => Fail(err)
      case Pass => Validation(aggregateID, events[0].version, aggregateType, events[1..])
  }

  /** The batch every event of which passes: same id and type, a non-empty
      reason, versions `current + 1, current + 2, ...` in order. */
  ghost predicate Acceptable(aggregateID: string, current: Version, aggregateType: string, events: seq<Event>)
    requires AllReasonable(events)
  {
    forall i :: 0 <= i < |events| ==>
      && events[i].aggregateID == aggregateID
      && events[i].aggregateType == aggregateType
      && events[i].version == current + i + 1
      && Reason(events[i]) != ""
  }

  /** `ValidateEvents`: a loop that advances `currentVersion` and returns on
      the first failure. The source reads `events[0]`, so the batch must not
      be empty, and `Reason` panics on a payload held directly. */
  method ValidateEvents(aggregateID: string, currentVersion: Version, events: seq<Event>) returns (err: Outcome)
    requires |events| > 0
    requires AllReasonable(events)
    ensures err == Validation(aggregateID, currentVersion, events[0].aggregateType, events)
    ensures err.Pass? <==> Acceptable(aggregateID, currentVersion, events[0].aggregateType, events)
  {
    var aggregateType := events[0].aggregateType;
    ValidationIffAcceptable(aggregateID, currentVersion, aggregateType, events);
    var current := currentVersion;
    var i := 0;
    while i < |events|
      invariant 0 <= i <= |events|
      invariant Validation(aggregateID, currentVersion, aggregateType, events)
             == Validation(aggregateID, current, aggregateType, events[i..])
    {
      var event := events[i];
      assert events[i..][1..] == events[i + 1..];
      if event.aggregateID != aggregateID {
        return Fail(EventMultipleAggregates);
      }
      if event.aggregateType != aggregateType {
        return Fail(EventMultipleAggregateTypes);
      }
      if current + 1 != event.version {
        return Fail(Concurrency);
      }
      if Reason(event) == "" {
        return Fail(ReasonMissing);
      }
      current := event.version;
      i := i + 1;
    }
    return Pass;
  }

  /** Validation succeeds exactly for acceptable batches. */
  lemma {:induction false} ValidationIffAcceptable(aggregateID: string, current: Version, aggregateType: string, events: seq<Event>)
    requires AllReasonable(events)
    ensures Validation(aggregateID, current, aggregateType, events) == Pass
        <==> Acceptable(aggregateID, current, aggregateType, events)
    decreases |events|
  {
    if events != [] {
      var rest := events[1..];
      ValidationIffAcceptable(aggregateID, events[0].version, aggregateType, rest);
      if Check(aggregateID, current, aggregateType, events[0]).Pass? {
        assert events[0].version == current + 1;
        if Acceptable(aggregateID, current, aggregateType, events) {
          forall i | 0 <= i < |rest|
            ensures rest[i].version == events[0].version + i + 1
          {
            assert rest[i] == events[i + 1];
          }
        }
        if Acceptable(aggregateID, events[0].version, aggregateType, rest) {
          forall i | 0 < i < |events|
            ensures events[i].version == current + i + 1
          {
            assert events[i] == rest[i - 1];
          }
        }
      } else {
        assert !(events[0].aggregateID == aggregateID && events[0].aggregateType == aggregateType
                 && events[0].version == current + 1 && Reason(events[0]) != "");
      }
    }
  }

  /** An accepted prefix of `k` events only advances the current version by
      `k`: validation continues with the rest as if it stood alone. */
  lemma {:induction false} ValidationSkipsAcceptedPrefix(aggregateID: string, current: Version, aggregateType: string, events: seq<Event>, k: nat)
    requires AllReasonable(events) && k <= |events|
    requires Acceptable(aggregateID, current, aggregateType, events[..k])
    ensures Validation(aggregateID, current, aggregateType, events)
         == Validation(aggregateID, current + k, aggregateType, events[k..])
    decreases k
  {
    if k > 0 {
      assert events[..k][0] == events[0];
      assert Check(aggregateID, current, aggregateType, events[0]) == Pass;
      var rest := events[1..];
      assert rest[..k - 1] == events[..k][1..];
      var prefix := rest[..k - 1];
      forall i | 0 <= i < |prefix|
        ensures prefix[i].version == current + 1 + i + 1
      {
        assert prefix[i] == events[..k][i + 1];
      }
      ValidationSkipsAcceptedPrefix(aggregateID, current + 1, aggregateType, rest, k - 1);
      assert rest[k - 1..] == events[k..];
    }
  }

  /** The first bad event decides the error: after an accepted prefix of `k`
      events, the outcome is the first failing check on event `k`. */
  lemma FirstBadEventDecides(aggregateID: string, current: Version, aggregateType: string, events: seq<Event>, k: nat)
    requires AllReasonable(events) && k < |events|
    requires Acceptable(aggregateID, current, aggregateType, events[..k])
    requires Check(aggregateID, current + k, aggregateType, events[k]).Fail?
    ensures Validation(aggregateID, current, aggregateType, events)
         == Check(aggregateID, current + k, aggregateType, events[k])
  {
    ValidationSkipsAcceptedPrefix(aggregateID, current, aggregateType, events, k);
    assert events[k..][0] == events[k];
  }

  /** A gap, a duplicate or a descending version after an accepted prefix is
      a concurrency conflict. */
  lemma VersionMismatchIsConcurrency(aggregateID: string, current: Version, aggregateType: string, events: seq<Event>, k: nat)
    requires AllReasonable(events) && k < |events|
    requires Acceptable(aggregateID, current, aggregateType, events[..k])
    requires events[k].aggregateID == aggregateID && events[k].aggregateType == aggregateType
    requires events[k].version != current + k + 1
    ensures Validation(aggregateID, current, aggregateType, events) == Fail(Concurrency)
  {
    FirstBadEventDecides(aggregateID, current, aggregateType, events, k);
  }

  /** An event of another aggregate after an accepted prefix is rejected as a
      multi-aggregate batch, whatever else is wrong with it. */
  lemma ForeignIDIsMultipleAggregates(aggregateID: string, current: Version, aggregateType: string, events: seq<Event>, k: nat)
    requires AllReasonable(events) && k < |events|
    requires Acceptable(aggregateID, current, aggregateType, events[..k])
    requires events[k].aggregateID != aggregateID
    ensures Validation(aggregateID, current, aggregateType, events) == Fail(EventMultipleAggregates)
  {
    FirstBadEventDecides(aggregateID, current, aggregateType, events, k);
  }

  /** An event of another aggregate type (same id) after an accepted prefix
      is rejected as a multi-type batch, before its version is looked at. */
  lemma ForeignTypeIsMultipleAggregateTypes(aggregateID: string, current: Version, aggregateType: string, events: seq<Event>, k: nat)
    requires AllReasonable(events) && k < |events|
    requires Acceptable(aggregateID, current, aggregateType, events[..k])
    requires events[k].aggregateID == aggregateID && events[k].aggregateType != aggregateType
    ensures Validation(aggregateID, current, aggregateType, events) == Fail(EventMultipleAggregateTypes)
  {
    FirstBadEventDecides(aggregateID, current, aggregateType, events, k);
  }

  /** An otherwise valid event without a payload name is rejected last. */
  lemma MissingReasonIsReasonMissing(aggregateID: string, current: Version, aggregateType: string, events: seq<Event>, k: nat)
    requires AllReasonable(events) && k < |events|
    requires Acceptable(aggregateID, current, aggregateType, events[..k])
    requires events[k].aggregateID == aggregateID && events[k].aggregateType == aggregateType
    requires events[k].version == current + k + 1 && events[k].data.Nil?
    ensures Validation(aggregateID, current, aggregateType, events) == Fail(ReasonMissing)
  {
    FirstBadEventDecides(aggregateID, current, aggregateType, events, k);
  }
}

=== FILE: eventstore_memory.dfy ===
/** The in-memory event store (eventstore/memory/memory.go). */
module EventStoreMemory {
  import opened Errors
  import opened Events
  import opened EventStore

  /** The bucket key of an aggregate. Distinct (type, id) pairs may share a
      key, since "_" may occur in either part. */
  function AggregateKey(aggregateType: string, aggregateID: string): (k: string)
    ensures |k| == |aggregateType| + 1 + |aggregateID|
    ensures k[..|aggregateType|] == aggregateType && k[|aggregateType|] == '_'
    ensures k[|aggregateType| + 1..] == aggregateID
  {
    aggregateType + "_" + aggregateID
  }

  /** The events of `bucket` with a version above `afterVersion`, in stored order. */
  function After(bucket: seq<Event>, afterVersion: Version): seq<Event>
  {
    if bucket == [] then []
    else
      var last := bucket[|bucket| - 1];
      After(bucket[..|bucket| - 1], afterVersion) + (if last.version > afterVersion then [last] else [])
  }

  /** The version a bucket has reached: its last event's, or 0 when empty. */
  function CurrentVersion(bucket: seq<Event>): (v: Version)
    ensures bucket == [] ==> v == 0
    ensures bucket != [] ==> v == bucket[|bucket| - 1].version
  {
    if |bucket| > 0 then bucket[|bucket| - 1].version else 0
  }

  /** A bucket holds versions `1, 2, ...` in order. */
  ghost predicate Contiguous(bucket: seq<Event>) {
    forall i :: 0 <= i < |bucket| ==> bucket[i].version == i + 1
  }

  /** Exactly the events above `afterVersion` are kept, in their order. */
  lemma {:induction false} AfterMembers(bucket: seq<Event>, afterVersion: Version, e: Event)
    ensures e in After(bucket, afterVersion) <==> e in bucket && e.version > afterVersion
  {
    if bucket != [] {
      var init := bucket[..|bucket| - 1];
      AfterMembers(init, afterVersion, e);
      assert bucket == init + [bucket[|bucket| - 1]];
    }
  }

  /** In a contiguous bucket the events after `v` are the suffix from
      position `v`. */
  lemma {:induction false} AfterContiguous(bucket: seq<Event>, afterVersion: Version)
    requires Contiguous(bucket)
    ensures After(bucket, afterVersion) == if afterVersion < |bucket| then bucket[afterVersion..] else []
  {
    if bucket != [] {
      var init := bucket[..|bucket| - 1];
      assert Contiguous(init) by {
        forall i | 0 <= i < |init| ensures init[i].version == i + 1 {
          assert init[i] == bucket[i];
        }
      }
      AfterContiguous(init, afterVersion);
      if afterVersion < |init| {
        assert init[afterVersion..] + [bucket[|bucket| - 1]] == bucket[afterVersion..];
      }
    }
  }

  /** Appending a validated batch to a contiguous bucket keeps it contiguous. */
  lemma AppendValidatedKeepsContiguous(bucket: seq<Event>, aggregateID: string, aggregateType: string, batch: seq<Event>)
    requires Contiguous(bucket) && AllReasonable(batch)
    requires Validation(aggregateID, CurrentVersion(bucket), aggregateType, batch) == Pass
    ensures Contiguous(bucket + batch)
  {
    ValidationIffAcceptable(aggregateID, CurrentVersion(bucket), aggregateType, batch);
    var all := bucket + batch;
    forall i | 0 <= i < |all| ensures all[i].version == i + 1 {
      if i >= |bucket| {
        assert all[i] == batch[i - |bucket|];
      }
    }
  }

  class Memory {
    var aggregateEvents: map<string, seq<Event>>
    var allEvents: seq<Event>

    /** Every bucket is numbered from 1 without gaps. */
    ghost predicate Valid()
      reads this
    {
      forall key :: key in aggregateEvents ==> Contiguous(aggregateEvents[key])
    }

    constructor ()
      ensures aggregateEvents == map[] && allEvents == [] && Valid()
    {
      aggregateEvents := map[];
      allEvents := [];
    }

    /** The stored events under `key`; a missing bucket reads as empty. */
    function Bucket(key: string): seq<Event>
      reads this
    {
      if key in aggregateEvents then aggregateEvents[key] else []
    }

    /** What `SaveEvents` answers for `events` in the current state. */
    function Admission(events: seq<Event>): Outcome
      requires AllReasonable(events)
      reads this
    {
      if events == [] then Pass
      else
        var key := AggregateKey(events[0].aggregateType, events[0].aggregateID);
        Validation(events[0].aggregateID, CurrentVersion(Bucket(key)), events[0].aggregateType, events)
    }

    /** The events `GetEvents` finds for one aggregate above `afterVersion`. */
    function Found(aggregateID: string, aggregateType: string, afterVersion: Version): seq<Event>
      reads this
    {
      After(Bucket(AggregateKey(aggregateType, aggregateID)), afterVersion)
    }

    /** Appends `events` to the bucket of the first event and to the global
        list, but only when the batch validates against the bucket's last
        version. An empty batch is a successful no-op. */
    method SaveEvents(events: seq<Event>) returns (err: Outcome)
      requires AllReasonable(events)
      requires Valid()
      modifies this
      ensures Valid()
      ensures err == old(Admission(events))
      ensures err.Fail? || events == [] ==> unchanged(this)
      ensures events != [] ==>
        var key := AggregateKey(events[0].aggregateType, events[0].aggregateID);
        && (err.Pass? ==> aggregateEvents == old(aggregateEvents)[key := old(Bucket(key)) + events]
                          && allEvents == old(allEvents) + events)
    {
      if |events| == 0 {
        return Pass;
      }
      var aggregateType := events[0].aggregateType;
      var aggregateID := events[0].aggregateID;
      var bucketName := AggregateKey(aggregateType, aggregateID);
      var bucket := Bucket(bucketName);
      var currentVersion: Version := 0;
      if |bucket| > 0 {
        currentVersion := bucket[|bucket| - 1].version;
      }
      err := ValidateEvents(aggregateID, currentVersion, events);
      if err.Fail? {
        return err;
      }
      AppendValidatedKeepsContiguous(bucket, aggregateID, aggregateType, events);
      bucket := bucket + events;
      aggregateEvents := aggregateEvents[bucketName := bucket];
      allEvents := allEvents + events;
    }

    /** The events of one aggregate above `afterVersion`, in stored order, or
        `NoEvents` when there are none. */
    method GetEvents(aggregateID: string, aggregateType: string, afterVersion: Version) returns (r: Result<seq<Event>>)
      ensures var found := Found(aggregateID, aggregateType, afterVersion);
              r == if found == [] then Err(NoEvents) else Ok(found)
    {
      var aggEvents := Bucket(AggregateKey(aggregateType, aggregateID));
      var events: seq<Event> := [];
      var i := 0;
      while i < |aggEvents|
        invariant 0 <= i <= |aggEvents|
        invariant events == After(aggEvents[..i], afterVersion)
      {
        assert aggEvents[..i + 1][..i] == aggEvents[..i];
        var event := aggEvents[i];
        if event.version > afterVersion {
          events := events + [event];
        }
        i := i + 1;
      }
      assert aggEvents[..i] == aggEvents;
      if |events| == 0 {
        return Err(NoEvents);
      }
      return Ok(events);
    }
  }
}

=== FILE: eventstream.dfy ===
/** The event dispatcher (eventstream.go): four subscription indices and the
    ordered, synchronous fan-out of events to their handlers. */
module Stream {
  import opened Errors
  import opened Events
  import opened Aggregates

  /** The package path of the root struct, which `path()` returns for every
      aggregate. */
  const RootPath := "github.com/bansukai/historia"

  /** The aggregate-type index key: `path + "." + name`. */
  function FormatAggregatePathType(typeName: string): (k: string)
    ensures |k| == |RootPath| + 1 + |typeName|
    ensures k[..|RootPath|] == RootPath && k[|RootPath|] == '.' && k[|RootPath| + 1..] == typeName
  {
    RootPath + "." + typeName
  }

  /** The aggregate-instance index key: `path + "." + name + "#" + id`. */
  function FormatAggregatePathNameID(typeName: string, id: string): (k: string)
    ensures var t := FormatAggregatePathType(typeName);
      && |k| == |t| + 1 + |id|
      && k[..|t|] == t && k[|t|] == '#' && k[|t| + 1..] == id
  {
    RootPath + "." + typeName + "#" + id
  }

  /** Type names are identifiers and contain no '#', so two instance keys are
      equal only for the same type name and the same id. */
  lemma InstanceKeyDistinguishes(typeName1: string, id1: string, typeName2: string, id2: string)
    requires '#' !in typeName1 && '#' !in typeName2
    requires FormatAggregatePathNameID(typeName1, id1) == FormatAggregatePathNameID(typeName2, id2)
    ensures typeName1 == typeName2 && id1 == id2
  {
  }

  /** `reflect.TypeOf` of a payload: nil for no payload, otherwise the named
      type and whether it is a pointer type. */
  datatype TypeTag = NilType | TypeTag(pkgPath: string, name: string, pointer: bool)

  /** The tag is `NilType` exactly for a nil payload. */
  function TypeOf(d: EventData): TypeTag
  {
    match d
    case Nil => NilType
    case Value(pkgPath, name, shape) => TypeTag(pkgPath, name, shape != Direct)
  }

  /** An event handler, reduced to the outcome it returns for each event. */
  type Handler = Event -> Outcome

  /** What a subscription listens to, with the exemplars it was built from. */
  datatype Target =
    | AllEvents
    | EventTypes(exemplars: seq<EventData>)
    | AggregateTypes(aggregates: seq<AggregateRoot>)
    | Instances(aggregates: seq<AggregateRoot>)

  function TypeTags(exemplars: seq<EventData>): (r: seq<TypeTag>)
    ensures |r| == |exemplars| && forall i :: 0 <= i < |r| ==> r[i] == TypeOf(exemplars[i])
  {
    seq(|exemplars|, i requires 0 <= i < |exemplars| => TypeOf(exemplars[i]))
  }

  function TypeKeys(aggregates: seq<AggregateRoot>): (r: seq<string>)
    ensures |r| == |aggregates|
    ensures forall i :: 0 <= i < |r| ==> r[i] == FormatAggregatePathType(aggregates[i].typeName)
  {
    seq(|aggregates|, i requires 0 <= i < |aggregates| => FormatAggregatePathType(aggregates[i].typeName))
  }

  /** Instance keys read each aggregate's current id. */
  function InstanceKeys(aggregates: seq<AggregateRoot>): (r: seq<string>)
    reads aggregates
    ensures |r| == |aggregates|
    ensures forall i :: 0 <= i < |r| ==>
      r[i] == FormatAggregatePathNameID(aggregates[i].typeName, aggregates[i].id)
  {
    seq(|aggregates|, i requires 0 <= i < |aggregates| reads aggregates =>
      FormatAggregatePathNameID(aggregates[i].typeName, aggregates[i].id))
  }

  // ---------------------------------------------------------------------
  // Index edits

  /** The list under `k`; a missing key reads as empty. */
  function Lookup<K(==)>(m: map<K, seq<Subscription>>, k: K): seq<Subscription> {
    if k in m then m[k] else []
  }

  /** The index after appending `s` under each key of `keys`, in order. */
  function AppendAll<K(==)>(m: map<K, seq<Subscription>>, keys: seq<K>, s: Subscription): map<K, seq<Subscription>> {
    if keys == [] then m
    else
      var before := AppendAll(m, keys[..|keys| - 1], s);
      var k := keys[|keys| - 1];
      before[k := Lookup(before, k) + [s]]
  }

  /** `xs` without its first occurrence of `s`. */
  function RemoveFirst(xs: seq<Subscription>, s: Subscription): seq<Subscription> {
    if xs == [] then []
    else if xs[0] == s then xs[1..]
    else [xs[0]] + RemoveFirst(xs[1..], s)
  }

  /** The index after removing the first `s` under each key of `keys`, in
      order; a key that is missing, or whose list lacks `s`, is not written. */
  function RemoveAll<K(==)>(m: map<K, seq<Subscription>>, keys: seq<K>, s: Subscription): map<K, seq<Subscription>> {
    if keys == [] then m
    else
      var before := RemoveAll(m, keys[..|keys| - 1], s);
      var k := keys[|keys| - 1];
      if k in before && s in before[k] then before[k := RemoveFirst(before[k], s)] else before
  }

  function Count<K(==)>(keys: seq<K>, k: K): nat {
    if keys == [] then 0
    else Count(keys[..|keys| - 1], k) + (if keys[|keys| - 1] == k then 1 else 0)
  }

  function Repeat(s: Subscription, n: nat): (r: seq<Subscription>)
    ensures |r| == n && forall i :: 0 <= i < n ==> r[i] == s
  {
    if n == 0 then [] else Repeat(s, n - 1) + [s]
  }

  /** Removes the first `s` from `xs`, `n` times. */
  function RemoveN(xs: seq<Subscription>, s: Subscription, n: nat): seq<Subscription> {
    if n == 0 then xs else RemoveFirst(RemoveN(xs, s, n - 1), s)
  }

  /** Removing the first occurrence splices out exactly that position and
      keeps every other entry in order. */
  lemma {:induction false} RemoveFirstAt(xs: seq<Subscription>, s: Subscription, i: nat)
    requires i < |xs| && xs[i] == s && s !in xs[..i]
    ensures RemoveFirst(xs, s) == xs[..i] + xs[i + 1..]
  {
    if i > 0 {
      assert xs[0] in xs[..i];
      assert xs[1..][..i - 1] == xs[..i][1..];
      RemoveFirstAt(xs[1..], s, i - 1);
      assert [xs[0]] + xs[1..][..i - 1] == xs[..i];
      assert xs[1..][i..] == xs[i + 1..];
    }
  }

  /** Without an occurrence there is nothing to remove. */
  lemma {:induction false} RemoveFirstAbsent(xs: seq<Subscription>, s: Subscription)
    requires s !in xs
    ensures RemoveFirst(xs, s) == xs
  {
    if xs != [] {
      assert xs[0] != s;
      RemoveFirstAbsent(xs[1..], s);
    }
  }

  /** Appending under `keys` adds `s` once per occurrence of the key. */
  lemma {:induction false} AppendAllLookup<K>(m: map<K, seq<Subscription>>, keys: seq<K>, s: Subscription, k: K)
    ensures Lookup(AppendAll(m, keys, s), k) == Lookup(m, k) + Repeat(s, Count(keys, k))
  {
    if keys != [] {
      AppendAllLookup(m, keys[..|keys| - 1], s, k);
    }
  }

  /** Removing under `keys` removes the first `s` once per occurrence of the key. */
  lemma {:induction false} RemoveAllLookup<K>(m: map<K, seq<Subscription>>, keys: seq<K>, s: Subscription, k: K)
    ensures Lookup(RemoveAll(m, keys, s), k) == RemoveN(Lookup(m, k), s, Count(keys, k))
  {
    if keys != [] {
      var init := keys[..|keys| - 1];
      RemoveAllLookup(m, init, s, k);
      var before := RemoveAll(m, init, s);
      var last := keys[|keys| - 1];
      if last == k && !(k in before && s in before[k]) {
        RemoveFirstAbsent(Lookup(before, k), s);
      }
    }
  }

  lemma {:induction false} RemoveNAppended(xs: seq<Subscription>, s: Subscription, m: nat, n: nat)
    requires s !in xs && n <= m
    ensures RemoveN(xs + Repeat(s, m), s, n) == xs + Repeat(s, m - n)
  {
    if n > 0 {
      RemoveNAppended(xs, s, m, n - 1);
      var ys := xs + Repeat(s, m - (n - 1));
      assert ys[..|xs|] == xs;
      RemoveFirstAt(ys, s, |xs|);
      assert ys[|xs| + 1..] == Repeat(s, m - n);
    }
  }

  /** Subscribing and then unsubscribing under the same keys gives every key
      back the list it had, when `s` was in none of them. */
  lemma SubscribeThenUnsubscribeRestores<K>(m: map<K, seq<Subscription>>, keys: seq<K>, s: Subscription, k: K)
    requires s !in Lookup(m, k)
    ensures Lookup(RemoveAll(AppendAll(m, keys, s), keys, s), k) == Lookup(m, k)
  {
    RemoveAllLookup(AppendAll(m, keys, s), keys, s, k);
    AppendAllLookup(m, keys, s, k);
    RemoveNAppended(Lookup(m, k), s, Count(keys, k), Count(keys, k));
  }

  /** Appending adds only `s`, and only under the given keys. */
  lemma {:induction false} AppendAllOrigin<K>(m: map<K, seq<Subscription>>, keys: seq<K>, s: Subscription, k: K, x: Subscription)
    requires k in AppendAll(m, keys, s) && x in AppendAll(m, keys, s)[k]
    ensures (k in m && x in m[k]) || (x == s && k in keys)
  {
    if keys != [] {
      var init := keys[..|keys| - 1];
      var before := AppendAll(m, init, s);
      if k == keys[|keys| - 1] && x == s {
      } else if k in before && x in before[k] {
        AppendAllOrigin(m, init, s, k, x);
      }
    }
  }

  lemma {:induction false} RemoveFirstSubset(xs: seq<Subscription>, s: Subscription, x: Subscription)
    requires x in RemoveFirst(xs, s)
    ensures x in xs
  {
    if xs != [] && xs[0] != s && x != xs[0] {
      RemoveFirstSubset(xs[1..], s, x);
    }
  }

  /** Removing never adds an entry. */
  lemma {:induction false} RemoveAllOrigin<K>(m: map<K, seq<Subscription>>, keys: seq<K>, s: Subscription, k: K, x: Subscription)
    requires k in RemoveAll(m, keys, s) && x in RemoveAll(m, keys, s)[k]
    ensures k in m && x in m[k]
  {
    if keys != [] {
      var init := keys[..|keys| - 1];
      var before := RemoveAll(m, init, s);
      var last := keys[|keys| - 1];
      if k == last && k in before && s in before[k] {
        RemoveFirstSubset(before[k], s, x);
      }
      RemoveAllOrigin(m, init, s, k, x);
    }
  }

  // ---------------------------------------------------------------------
  // Dispatch

  /** One handler call: this subscription's handler with this event. */
  datatype Delivery = Delivery(subscription: Subscription, event: Event)

  /** What a dispatch returns, and the handler calls it made in order. */
  datatype Dispatch = Dispatch(outcome: Outcome, calls: seq<Delivery>)

  function Handled(d: Delivery): Outcome {
    d.subscription.handler(d.event)
  }

  /** `event` addressed to each of `subs`, in list order. */
  function Address(subs: seq<Subscription>, event: Event): (r: seq<Delivery>)
    ensures |r| == |subs| && forall i :: 0 <= i < |r| ==> r[i] == Delivery(subs[i], event)
  {
    if subs == [] then []
    else Address(subs[..|subs| - 1], event) + [Delivery(subs[|subs| - 1], event)]
  }

  /** Runs the planned calls in order and stops at the first handler error:
      the calls made are the plan up to and including the first failure, and
      the outcome is that failure, or nil when every handler succeeded. */
  function Deliver(plan: seq<Delivery>): Dispatch {
    if plan == [] then Dispatch(Pass, [])
    else
      var first := Handled(plan[0]);
      if first.Fail? then Dispatch(first, [plan[0]])
      else
        var rest := Deliver(plan[1..]);
        Dispatch(rest.outcome, [plan[0]] + rest.calls)
  }

  /** What `Deliver` means: the calls made are a prefix of the plan, every
      call but the last succeeded, the whole plan ran exactly when every
      handler succeeded, and a failure is the last call's own error. */
  lemma {:induction false} DeliverStopsAtFirstFailure(plan: seq<Delivery>)
    ensures var d := Deliver(plan);
      && |d.calls| <= |plan| && d.calls == plan[..|d.calls|]
      && (forall i :: 0 <= i < |d.calls| - 1 ==> Handled(d.calls[i]) == Pass)
      && (d.outcome.Pass? <==> d.calls == plan && forall i :: 0 <= i < |plan| ==> Handled(plan[i]) == Pass)
      && (d.outcome.Fail? ==> d.calls != [] && Handled(d.calls[|d.calls| - 1]) == d.outcome)
  {
    if plan != [] && Handled(plan[0]).Pass? {
      DeliverStopsAtFirstFailure(plan[1..]);
      var rest := Deliver(plan[1..]);
      assert forall i :: 1 <= i < |plan| ==> plan[i] == plan[1..][i - 1];
      assert forall i :: 1 <= i < |rest.calls| + 1 ==> ([plan[0]] + rest.calls)[i] == rest.calls[i - 1];
    }
  }

  /** Running two plans one after the other: the second runs only when the
      first succeeded. */
  lemma {:induction false} DeliverAppend(a: seq<Delivery>, b: seq<Delivery>)
    ensures Deliver(a + b) ==
      (if Deliver(a).outcome.Fail? then Deliver(a)
       else Dispatch(Deliver(b).outcome, Deliver(a).calls + Deliver(b).calls))
  {
    if a != [] {
      assert (a + b)[0] == a[0];
      assert (a + b)[1..] == a[1..] + b;
      if Handled(a[0]).Pass? {
        DeliverAppend(a[1..], b);
        var da := Deliver(a[1..]);
        var db := Deliver(b);
        if da.outcome.Pass? {
          assert [a[0]] + (da.calls + db.calls) == ([a[0]] + da.calls) + db.calls;
        }
      }
    } else {
      assert a + b == b;
    }
  }

  class Subscription {
    const stream: EventStream
    const handler: Handler
    const target: Target

    constructor (stream: EventStream, handler: Handler, target: Target)
      ensures this.stream == stream && this.handler == handler && this.target == target
    {
      this.stream := stream;
      this.handler := handler;
      this.target := target;
    }

    /** Registers this subscription once under each of its keys. */
    method Subscribe()
      requires stream.Sound()
      modifies stream
      ensures stream.Sound()
      ensures stream.allEvents ==
        if target.AllEvents? then old(stream.allEvents) + [this] else old(stream.allEvents)
      ensures stream.specificEvents ==
        if target.EventTypes? then AppendAll(old(stream.specificEvents), TypeTags(target.exemplars), this)
        else old(stream.specificEvents)
      ensures stream.aggregateTypes ==
        if target.AggregateTypes? then AppendAll(old(stream.aggregateTypes), TypeKeys(target.aggregates), this)
        else old(stream.aggregateTypes)
      ensures stream.specificAggregates ==
        if target.Instances? then AppendAll(old(stream.specificAggregates), InstanceKeys(target.aggregates), this)
        else old(stream.specificAggregates)
    {
      match target {
        case AllEvents =>
          stream.allEvents := stream.allEvents + [this];
        case EventTypes(exemplars) =>
          var index := AppendUnder(stream.specificEvents, TypeTags(exemplars), this);
          stream.specificEvents := index;
        case AggregateTypes(aggregates) =>
          var index := AppendUnder(stream.aggregateTypes, TypeKeys(aggregates), this);
          stream.aggregateTypes := index;
        case Instances(aggregates) =>
          var index := AppendUnder(stream.specificAggregates, InstanceKeys(aggregates), this);
          stream.specificAggregates := index;
      }
      SubscribeKeepsSound(old(stream.allEvents), old(stream.specificEvents),
                          old(stream.aggregateTypes), old(stream.specificAggregates));
    }

    /** Keeps `Sound` across `Subscribe` (a separate step so that the
        method's own proof stays small). */
    lemma SubscribeKeepsSound(all0: seq<Subscription>, events0: map<TypeTag, seq<Subscription>>,
                              types0: map<string, seq<Subscription>>, instances0: map<string, seq<Subscription>>)
      requires EventStream.Indexed(all0, events0, types0, instances0)
      requires stream.allEvents == if target.AllEvents? then all0 + [this] else all0
      requires stream.specificEvents ==
        if target.EventTypes? then AppendAll(events0, TypeTags(target.exemplars), this) else events0
      requires stream.aggregateTypes ==
        if target.AggregateTypes? then AppendAll(types0, TypeKeys(target.aggregates), this) else types0
      requires stream.specificAggregates ==
        if target.Instances? then AppendAll(instances0, InstanceKeys(target.aggregates), this) else instances0
      ensures stream.Sound()
    {
      forall t, x | t in stream.specificEvents && x in stream.specificEvents[t]
        ensures x.target.EventTypes? && t in TypeTags(x.target.exemplars)
      {
        if target.EventTypes? { AppendAllOrigin(events0, TypeTags(target.exemplars), this, t, x); }
      }
      forall k, x | k in stream.aggregateTypes && x in stream.aggregateTypes[k]
        ensures x.target.AggregateTypes? && k in TypeKeys(x.target.aggregates)
      {
        if target.AggregateTypes? { AppendAllOrigin(types0, TypeKeys(target.aggregates), this, k, x); }
      }
      forall k, x | k in stream.specificAggregates && x in stream.specificAggregates[k]
        ensures x.target.Instances?
      {
        if target.Instances? { AppendAllOrigin(instances0, InstanceKeys(target.aggregates), this, k, x); }
      }
    }

    /** Removes from each of its keys' lists the first entry that is this
        very subscription; other entries keep their order. */
    method Unsubscribe()
      requires stream.Sound()
      modifies stream
      ensures stream.Sound()
      ensures stream.allEvents ==
        if target.AllEvents? then RemoveFirst(old(stream.allEvents), this) else old(stream.allEvents)
      ensures stream.specificEvents ==
        if target.EventTypes? then RemoveAll(old(stream.specificEvents), TypeTags(target.exemplars), this)
        else old(stream.specificEvents)
      ensures stream.aggregateTypes ==
        if target.AggregateTypes? then RemoveAll(old(stream.aggregateTypes), TypeKeys(target.aggregates), this)
        else old(stream.aggregateTypes)
      ensures stream.specificAggregates ==
        if target.Instances? then RemoveAll(old(stream.specificAggregates), InstanceKeys(target.aggregates), this)
        else old(stream.specificAggregates)
    {
      match target {
        case AllEvents =>
          var subs := Splice(stream.allEvents, this);
          stream.allEvents := subs;
        case EventTypes(exemplars) =>
          var index := RemoveUnder(stream.specificEvents, TypeTags(exemplars), this);
          stream.specificEvents := index;
        case AggregateTypes(aggregates) =>
          var index := RemoveUnder(stream.aggregateTypes, TypeKeys(aggregates), this);
          stream.aggregateTypes := index;
        case Instances(aggregates) =>
          var index := RemoveUnder(stream.specificAggregates, InstanceKeys(aggregates), this);
          stream.specificAggregates := index;
      }
      UnsubscribeKeepsSound(old(stream.allEvents), old(stream.specificEvents),
                            old(stream.aggregateTypes), old(stream.specificAggregates));
    }

    lemma UnsubscribeKeepsSound(all0: seq<Subscription>, events0: map<TypeTag, seq<Subscription>>,
                                types0: map<string, seq<Subscription>>, instances0: map<string, seq<Subscription>>)
      requires EventStream.Indexed(all0, events0, types0, instances0)
      requires stream.allEvents == if target.AllEvents? then RemoveFirst(all0, this) else all0
      requires stream.specificEvents ==
        if target.EventTypes? then RemoveAll(events0, TypeTags(target.exemplars), this) else events0
      requires stream.aggregateTypes ==
        if target.AggregateTypes? then RemoveAll(types0, TypeKeys(target.aggregates), this) else types0
      requires stream.specificAggregates ==
        if target.Instances? then RemoveAll(instances0, InstanceKeys(target.aggregates), this) else instances0
      ensures stream.Sound()
    {
      forall x | x in stream.allEvents ensures x.target.AllEvents? {
        if target.AllEvents? { RemoveFirstSubset(all0, this, x); }
      }
      forall t, x | t in stream.specificEvents && x in stream.specificEvents[t]
        ensures x.target.EventTypes? && t in TypeTags(x.target.exemplars)
      {
        if target.EventTypes? { RemoveAllOrigin(events0, TypeTags(target.exemplars), this, t, x); }
      }
      forall k, x | k in stream.aggregateTypes && x in stream.aggregateTypes[k]
        ensures x.target.AggregateTypes? && k in TypeKeys(x.target.aggregates)
      {
        if target.AggregateTypes? { RemoveAllOrigin(types0, TypeKeys(target.aggregates), this, k, x); }
      }
      forall k, x | k in stream.specificAggregates && x in stream.specificAggregates[k]
        ensures x.target.Instances?
      {
        if target.Instances? { RemoveAllOrigin(instances0, InstanceKeys(target.aggregates), this, k, x); }
      }
    }
  }

  /** Appends `s` to the list under each key in turn, creating missing
      lists (the loops of the subscribe closures). */
  method AppendUnder<K(==)>(m: map<K, seq<Subscription>>, keys: seq<K>, s: Subscription) returns (r: map<K, seq<Subscription>>)
    ensures r == AppendAll(m, keys, s)
  {
    r := m;
    var i := 0;
    while i < |keys|
      invariant 0 <= i <= |keys|
      invariant r == AppendAll(m, keys[..i], s)
    {
      assert keys[..i + 1][..i] == keys[..i];
      var k := keys[i];
      r := r[k := Lookup(r, k) + [s]];
      i := i + 1;
    }
    assert keys[..i] == keys;
  }

  /** Splices the first `s` out of the list under each key in turn (the
      loops of the unsubscribe closures). */
  method RemoveUnder<K(==)>(m: map<K, seq<Subscription>>, keys: seq<K>, s: Subscription) returns (r: map<K, seq<Subscription>>)
    ensures r == RemoveAll(m, keys, s)
  {
    r := m;
    var i := 0;
    while i < |keys|
      invariant 0 <= i <= |keys|
      invariant r == RemoveAll(m, keys[..i], s)
    {
      assert keys[..i + 1][..i] == keys[..i];
      r := Unlist(r, keys[i], s);
      i := i + 1;
    }
    assert keys[..i] == keys;
  }

  /** Splices the first `s` out of `subs`; without one, `subs` is returned
      as it is. */
  method Splice(subs: seq<Subscription>, s: Subscription) returns (r: seq<Subscription>)
    ensures r == RemoveFirst(subs, s)
  {
    var found, i := Position(subs, s);
    if found {
      RemoveFirstAt(subs, s, i);
      r := subs[..i] + subs[i + 1..];
    } else {
      RemoveFirstAbsent(subs, s);
      r := subs;
    }
  }

  /** Splices the first `s` out of the list under `k`; the index is not
      written when the key is missing or its list lacks `s`. */
  method Unlist<K(==)>(m: map<K, seq<Subscription>>, k: K, s: Subscription) returns (r: map<K, seq<Subscription>>)
    ensures r == if k in m && s in m[k] then m[k := RemoveFirst(m[k], s)] else m
  {
    r := m;
    if k in m {
      var found, i := Position(m[k], s);
      if found {
        RemoveFirstAt(m[k], s, i);
        r := m[k := m[k][..i] + m[k][i + 1..]];
      }
    }
  }

  /** The position of the first `s` in `subs`, as the source's search loop
      finds it. */
  method Position(subs: seq<Subscription>, s: Subscription) returns (found: bool, i: nat)
    ensures found ==> i < |subs| && subs[i] == s && s !in subs[..i]
    ensures !found <==> s !in subs
  {
    i := 0;
    while i < |subs|
      invariant 0 <= i <= |subs|
      invariant s !in subs[..i]
    {
      if subs[i] == s {
        return true, i;
      }
      assert subs[..i + 1] == subs[..i] + [subs[i]];
      i := i + 1;
    }
    assert subs[..i] == subs;
    return false, i;
  }

  class EventStream {
    var aggregateTypes: map<string, seq<Subscription>>
    var specificAggregates: map<string, seq<Subscription>>
    var specificEvents: map<TypeTag, seq<Subscription>>
    var allEvents: seq<Subscription>

    /** Each index holds only subscriptions of its own kind, and the payload
        and aggregate-type indices hold a subscription only under one of the
        keys it was built for. */
    static ghost predicate Indexed(all: seq<Subscription>, events: map<TypeTag, seq<Subscription>>,
                                   types: map<string, seq<Subscription>>, instances: map<string, seq<Subscription>>)
    {
      && (forall x :: x in all ==> x.target.AllEvents?)
      && (forall t, x :: t in events && x in events[t] ==> x.target.EventTypes? && t in TypeTags(x.target.exemplars))
      && (forall k, x :: k in types && x in types[k] ==> x.target.AggregateTypes? && k in TypeKeys(x.target.aggregates))
      && (forall k, x :: k in instances && x in instances[k] ==> x.target.Instances?)
    }

    ghost predicate Sound()
      reads this
    {
      Indexed(allEvents, specificEvents, aggregateTypes, specificAggregates)
    }

    constructor ()
      ensures aggregateTypes == map[] && specificAggregates == map[] && specificEvents == map[] && allEvents == []
      ensures Sound()
    {
      aggregateTypes := map[];
      specificAggregates := map[];
      specificEvents := map[];
      allEvents := [];
    }

    /** Builds (but does not register) a subscription to every event. */
    method SubscriberAll(f: Handler) returns (s: Subscription)
      ensures fresh(s) && s.stream == this && s.handler == f && s.target == AllEvents
    {
      s := new Subscription(this, f, AllEvents);
    }

    /** Builds (but does not register) a subscription to the given aggregate instances. */
    method SubscriberSpecificAggregate(f: Handler, aggregates: seq<AggregateRoot>) returns (s: Subscription)
      ensures fresh(s) && s.stream == this && s.handler == f && s.target == Instances(aggregates)
    {
      s := new Subscription(this, f, Instances(aggregates));
    }

    /** Builds (but does not register) a subscription to the given aggregate types. */
    method SubscriberAggregateType(f: Handler, aggregates: seq<AggregateRoot>) returns (s: Subscription)
      ensures fresh(s) && s.stream == this && s.handler == f && s.target == AggregateTypes(aggregates)
    {
      s := new Subscription(this, f, AggregateTypes(aggregates));
    }

    /** Builds (but does not register) a subscription to the given payload types. */
    method SubscriberSpecificEvent(f: Handler, events: seq<EventData>) returns (s: Subscription)
      ensures fresh(s) && s.stream == this && s.handler == f && s.target == EventTypes(events)
    {
      s := new Subscription(this, f, EventTypes(events));
    }

    /** The handlers one event reaches, in dispatch order: all-events, then
        its payload type, then the aggregate type, then the instance. */
    function Recipients(event: Event, typeKey: string, instanceKey: string): seq<Subscription>
      reads this
    {
      allEvents + Lookup(specificEvents, TypeOf(event.data))
        + Lookup(aggregateTypes, typeKey) + Lookup(specificAggregates, instanceKey)
    }

    /** Every handler call `Update` would make if no handler failed. */
    function Plan(events: seq<Event>, typeKey: string, instanceKey: string): seq<Delivery>
      reads this
    {
      if events == [] then []
      else
        var last := events[|events| - 1];
        Plan(events[..|events| - 1], typeKey, instanceKey) + Address(Recipients(last, typeKey, instanceKey), last)
    }

    lemma {:induction false} PlanConcat(a: seq<Event>, b: seq<Event>, typeKey: string, instanceKey: string)
      ensures Plan(a + b, typeKey, instanceKey) == Plan(a, typeKey, instanceKey) + Plan(b, typeKey, instanceKey)
    {
      if b != [] {
        var init := b[..|b| - 1];
        var last := b[|b| - 1];
        assert (a + b)[..|a + b| - 1] == a + init;
        assert (a + b)[|a + b| - 1] == last;
        PlanConcat(a, init, typeKey, instanceKey);
        var step := Address(Recipients(last, typeKey, instanceKey), last);
        assert Plan(a + b, typeKey, instanceKey) == Plan(a + init, typeKey, instanceKey) + step;
        assert Plan(b, typeKey, instanceKey) == Plan(init, typeKey, instanceKey) + step;
      } else {
        assert a + b == a;
      }
    }

    lemma {:induction false} AddressConcat(a: seq<Subscription>, b: seq<Subscription>, event: Event)
      ensures Address(a + b, event) == Address(a, event) + Address(b, event)
    {
    }

    /** A planned call reaches a recipient of one of the published events. */
    lemma {:induction false} PlanMember(events: seq<Event>, typeKey: string, instanceKey: string, d: Delivery)
      requires d in Plan(events, typeKey, instanceKey)
      ensures d.event in events && d.subscription in Recipients(d.event, typeKey, instanceKey)
    {
      var last := events[|events| - 1];
      var init := events[..|events| - 1];
      if d in Plan(init, typeKey, instanceKey) {
        PlanMember(init, typeKey, instanceKey, d);
      } else {
        var subs := Recipients(last, typeKey, instanceKey);
        var j :| 0 <= j < |subs| && Address(subs, last)[j] == d;
      }
    }

    /** A payload-type subscriber is called only for events whose payload
        type is one it registered. */
    lemma OnlyRegisteredPayloadTypes(events: seq<Event>, typeKey: string, instanceKey: string, d: Delivery)
      requires Sound() && d.subscription.target.EventTypes?
      requires d in Plan(events, typeKey, instanceKey)
      ensures TypeOf(d.event.data) in TypeTags(d.subscription.target.exemplars)
    {
      PlanMember(events, typeKey, instanceKey, d);
    }

    /** An aggregate-type subscriber is called only when the published
        aggregate's type key is one it registered. */
    lemma OnlyRegisteredAggregateTypes(events: seq<Event>, typeKey: string, instanceKey: string, d: Delivery)
      requires Sound() && d.subscription.target.AggregateTypes?
      requires d in Plan(events, typeKey, instanceKey)
      ensures typeKey in TypeKeys(d.subscription.target.aggregates)
    {
      PlanMember(events, typeKey, instanceKey, d);
    }

    /** An instance subscriber is called only when it is listed under the
        published aggregate's own instance key. */
    lemma OnlyListedInstances(events: seq<Event>, typeKey: string, instanceKey: string, d: Delivery)
      requires Sound() && d.subscription.target.Instances?
      requires d in Plan(events, typeKey, instanceKey)
      ensures d.subscription in Lookup(specificAggregates, instanceKey)
    {
      PlanMember(events, typeKey, instanceKey, d);
    }

    /** Calls the handlers of `subs` with `event` in order, stopping at the
        first error (the loop shared by the four `update*` helpers). */
    method Notify(subs: seq<Subscription>, event: Event) returns (err: Outcome, calls: seq<Delivery>)
      ensures Dispatch(err, calls) == Deliver(Address(subs, event))
    {
      ghost var plan := Address(subs, event);
      calls := [];
      var i := 0;
      while i < |subs|
        invariant 0 <= i <= |subs|
        invariant Deliver(plan[..i]) == Dispatch(Pass, calls)
      {
        var s := subs[i];
        DeliverNext(plan, i, calls);
        calls := calls + [Delivery(s, event)];
        var result := s.handler(event);
        if result.Fail? {
          StopsAtPrefix(plan, i + 1);
          return result, calls;
        }
        i := i + 1;
      }
      assert plan[..i] == plan;
      return Pass, calls;
    }

    method UpdateAll(event: Event) returns (err: Outcome, calls: seq<Delivery>)
      ensures Dispatch(err, calls) == Deliver(Address(allEvents, event))
    {
      err, calls := Notify(allEvents, event);
    }

    method UpdateSpecificEvent(event: Event) returns (err: Outcome, calls: seq<Delivery>)
      ensures Dispatch(err, calls) == Deliver(Address(Lookup(specificEvents, TypeOf(event.data)), event))
    {
      var t := TypeOf(event.data);
      if t in specificEvents {
        err, calls := Notify(specificEvents[t], event);
      } else {
        err, calls := Pass, [];
      }
    }

    method UpdateSpecificAggregateEvents(aggregate: AggregateRoot, event: Event) returns (err: Outcome, calls: seq<Delivery>)
      ensures Dispatch(err, calls) ==
        Deliver(Address(Lookup(aggregateTypes, FormatAggregatePathType(aggregate.typeName)), event))
    {
      var ref := FormatAggregatePathType(aggregate.typeName);
      if ref in aggregateTypes {
        err, calls := Notify(aggregateTypes[ref], event);
      } else {
        err, calls := Pass, [];
      }
    }

    method UpdateSpecificAggregate(aggregate: AggregateRoot, event: Event) returns (err: Outcome, calls: seq<Delivery>)
      ensures Dispatch(err, calls) ==
        Deliver(Address(Lookup(specificAggregates, FormatAggregatePathNameID(aggregate.typeName, aggregate.id)), event))
    {
      var ref := FormatAggregatePathNameID(aggregate.typeName, aggregate.id);
      if ref in specificAggregates {
        err, calls := Notify(specificAggregates[ref], event);
      } else {
        err, calls := Pass, [];
      }
    }

    /** One event's pass over the four handler lists, in order: all-events,
        payload type, aggregate type, aggregate instance. */
    method UpdateEvent(aggregate: AggregateRoot, event: Event) returns (err: Outcome, calls: seq<Delivery>)
      ensures Dispatch(err, calls) == Deliver(
        Address(allEvents, event)
        + Address(Lookup(specificEvents, TypeOf(event.data)), event)
        + Address(Lookup(aggregateTypes, FormatAggregatePathType(aggregate.typeName)), event)
        + Address(Lookup(specificAggregates, FormatAggregatePathNameID(aggregate.typeName, aggregate.id)), event))
    {
      ghost var a := Address(allEvents, event);
      ghost var b := Address(Lookup(specificEvents, TypeOf(event.data)), event);
      ghost var c := Address(Lookup(aggregateTypes, FormatAggregatePathType(aggregate.typeName)), event);
      ghost var d := Address(Lookup(specificAggregates, FormatAggregatePathNameID(aggregate.typeName, aggregate.id)), event);
      err, calls := UpdateAll(event);
      if err.Fail? {
        StopsAtFailure(a, b);
        StopsAtFailure(a + b, c);
        StopsAtFailure(a + b + c, d);
        return;
      }
      var e2, c2 := UpdateSpecificEvent(event);
      ThenDeliver(a, b, calls, e2, c2);
      err, calls := e2, calls + c2;
      if err.Fail? {
        StopsAtFailure(a + b, c);
        StopsAtFailure(a + b + c, d);
        return;
      }
      var e3, c3 := UpdateSpecificAggregateEvents(aggregate, event);
      ThenDeliver(a + b, c, calls, e3, c3);
      err, calls := e3, calls + c3;
      if err.Fail? {
        StopsAtFailure(a + b + c, d);
        return;
      }
      var e4, c4 := UpdateSpecificAggregate(aggregate, event);
      ThenDeliver(a + b + c, d, calls, e4, c4);
      err, calls := e4, calls + c4;
    }

    lemma RecipientsInOrder(event: Event, typeKey: string, instanceKey: string)
      ensures Address(Recipients(event, typeKey, instanceKey), event) ==
        Address(allEvents, event)
        + Address(Lookup(specificEvents, TypeOf(event.data)), event)
        + Address(Lookup(aggregateTypes, typeKey), event)
        + Address(Lookup(specificAggregates, instanceKey), event)
    {
      var a := allEvents;
      var b := Lookup(specificEvents, TypeOf(event.data));
      var c := Lookup(aggregateTypes, typeKey);
      var d := Lookup(specificAggregates, instanceKey);
      AddressConcat(a + b + c, d, event);
      AddressConcat(a + b, c, event);
      AddressConcat(a, b, event);
    }

    /** Publishes `events` for `aggregate`: each event goes to the
        all-events handlers, then its payload-type handlers, then the
        aggregate-type handlers, then the instance handlers, each list in
        registration order; the first handler error ends the whole call.
        The aggregate keys come from `aggregate`, not from the events. */
    method Update(aggregate: AggregateRoot, events: seq<Event>) returns (err: Outcome, calls: seq<Delivery>)
      ensures Dispatch(err, calls) == Deliver(Plan(events,
        FormatAggregatePathType(aggregate.typeName),
        FormatAggregatePathNameID(aggregate.typeName, aggregate.id)))
    {
      ghost var typeKey := FormatAggregatePathType(aggregate.typeName);
      ghost var instanceKey := FormatAggregatePathNameID(aggregate.typeName, aggregate.id);
      calls := [];
      var i := 0;
      while i < |events|
        invariant 0 <= i <= |events|
        invariant Deliver(Plan(events[..i], typeKey, instanceKey)) == Dispatch(Pass, calls)
      {
        var event := events[i];
        PlanExtend(events, i, typeKey, instanceKey);
        RecipientsInOrder(event, typeKey, instanceKey);
        var e, c := UpdateEvent(aggregate, event);
        ThenDeliver(Plan(events[..i], typeKey, instanceKey),
                    Address(Recipients(event, typeKey, instanceKey), event), calls, e, c);
        calls := calls + c;
        if e.Fail? {
          PlanStopsAt(events, i + 1, typeKey, instanceKey);
          return e, calls;
        }
        i := i + 1;
      }
      assert events[..i] == events;
      return Pass, calls;
    }

    lemma PlanExtend(events: seq<Event>, i: nat, typeKey: string, instanceKey: string)
      requires i < |events|
      ensures Plan(events[..i + 1], typeKey, instanceKey) ==
        Plan(events[..i], typeKey, instanceKey) + Address(Recipients(events[i], typeKey, instanceKey), events[i])
    {
      assert events[..i + 1][..i] == events[..i];
    }

    /** When the first `i` events' calls end in a failure, the later events
        are never dispatched. */
    lemma PlanStopsAt(events: seq<Event>, i: nat, typeKey: string, instanceKey: string)
      requires i <= |events| && Deliver(Plan(events[..i], typeKey, instanceKey)).outcome.Fail?
      ensures Deliver(Plan(events, typeKey, instanceKey)) == Deliver(Plan(events[..i], typeKey, instanceKey))
    {
      var done, rest := events[..i], events[i..];
      assert done + rest == events;
      PlanConcat(done, rest, typeKey, instanceKey);
      StopsAtFailure(Plan(done, typeKey, instanceKey), Plan(rest, typeKey, instanceKey));
    }
  }

  /** Once a prefix of the plan has failed, nothing after it runs. */
  lemma StopsAtFailure(a: seq<Delivery>, b: seq<Delivery>)
    requires Deliver(a).outcome.Fail?
    ensures Deliver(a + b) == Deliver(a)
  {
    DeliverAppend(a, b);
  }

  /** Running one more planned call after a prefix that succeeded. */
  lemma DeliverNext(plan: seq<Delivery>, i: nat, calls: seq<Delivery>)
    requires i < |plan| && Deliver(plan[..i]) == Dispatch(Pass, calls)
    ensures Deliver(plan[..i + 1]) == Dispatch(Handled(plan[i]), calls + [plan[i]])
  {
    assert plan[..i + 1] == plan[..i] + [plan[i]];
    DeliverAppend(plan[..i], [plan[i]]);
  }

  /** A prefix of the plan that failed is all that runs of it. */
  lemma StopsAtPrefix(plan: seq<Delivery>, k: nat)
    requires k <= |plan| && Deliver(plan[..k]).outcome.Fail?
    ensures Deliver(plan) == Deliver(plan[..k])
  {
    assert plan[..k] + plan[k..] == plan;
    StopsAtFailure(plan[..k], plan[k..]);
  }

  /** A plan that succeeded is followed by the next one. */
  lemma ThenDeliver(a: seq<Delivery>, b: seq<Delivery>, calls: seq<Delivery>, err: Outcome, more: seq<Delivery>)
    requires Deliver(a) == Dispatch(Pass, calls) && Deliver(b) == Dispatch(err, more)
    ensures Deliver(a + b) == Dispatch(err, calls + more)
  {
    DeliverAppend(a, b);
  }
}

=== FILE: repository.dfy ===
/** The repository (repository.go): the load and save protocols that tie the
    aggregate, the event store, the snapper and the event stream together.
    Its ports are the in-memory event store and the snapper over the
    in-memory snapshot store. */
module Repository {
  import opened Errors
  import opened Events
  import opened Aggregates
  import opened EventStore
  import opened EventStoreMemory
  import opened Snapshots
  import opened SnapshotMemory
  import opened Stream
  import opened Snapshotting

  /** The root's fields: id, persisted version, pending events, and the
      inputs its own code has received. */
  datatype RootState = RootState(id: string, version: Version, events: seq<Event>, inputs: seq<Input>)
  {
    /** The root's `Version()` in this state. */
    function Current(): Version {
      if events == [] then version else events[|events| - 1].version
    }
  }

  function Root(aggregate: AggregateRoot): RootState
    reads aggregate
  {
    RootState(aggregate.id, aggregate.version, aggregate.events, aggregate.inputs)
  }

  /** An outcome and the root it leaves. */
  datatype Step = Step(outcome: Outcome, root: RootState)
  {
    /** A snapshot step aborts `Get` on any error except a missing snapshot. */
    predicate Aborts() {
      outcome.Fail? && outcome.error != SnapshotNotFound
    }
  }

  /** The root after `BuildFromHistory(history)`, whose contract in
      `Aggregates` states the same effect on the root's fields. */
  function Replay(root: RootState, history: seq<Event>): RootState
  {
    if history == [] then root
    else
      var last := history[|history| - 1];
      RootState(last.aggregateID, last.version, root.events, root.inputs + Transitions(history))
  }

  class Repo {
    const stream: EventStream
    const eventStore: EventStoreMemory.Memory
    const snapper: Snapper?

    constructor (eventStore: EventStoreMemory.Memory, snapper: Snapper?)
      ensures this.eventStore == eventStore && this.snapper == snapper && fresh(stream)
      ensures stream.allEvents == [] && stream.specificEvents == map[]
      ensures stream.aggregateTypes == map[] && stream.specificAggregates == map[]
    {
      this.stream := new EventStream();
      this.eventStore := eventStore;
      this.snapper := snapper;
    }

    /** Where the snapshot step of `Get` leaves a root of type `typeName`
        with snapshot capability `taker`: without a snapper, as it is;
        otherwise as `ApplySnapshot` leaves it. */
    ghost function AfterSnapshot(aggregateID: string, typeName: string, taker: Option<Taker>, root: RootState): (s: Step)
      reads if snapper == null then {} else {snapper.store}
      ensures snapper == null ==> s == Step(Pass, root)
    {
      if snapper == null then Step(Pass, root)
      else
        var r := Restorable(taker, Stored(snapper.store.store, aggregateID, FormatAggregatePathType(typeName)), snapper.marshaller);
        if r.Err? then Step(Fail(r.error), root)
        else
          var (snap, body) := r.value;
          var applied := taker.value.apply(body);
          var inputs := root.inputs + [Restored(body)];
          if applied.Fail? then Step(applied, root.(inputs := inputs))
          else Step(Pass, RootState(snap.id, snap.version, [], inputs))
    }

    /** The event step of `Get`: the stored events above the root's version
        are replayed; none at all for a root at version 0 is
        `AggregateNotFound`. */
    ghost function FetchAndReplay(aggregateID: string, typeName: string, root: RootState): Step
      reads eventStore
    {
      var found := eventStore.Found(aggregateID, typeName, root.Current());
      if found == [] then Step(if root.Current() == 0 then Fail(AggregateNotFound) else Pass, root)
      else Step(Pass, Replay(root, found))
    }

    /** What `Get` answers and where it leaves the root. */
    ghost function Load(aggregateID: string, typeName: string, taker: Option<Taker>, root: RootState): Step
      reads eventStore, if snapper == null then {} else {snapper.store}
    {
      var s := AfterSnapshot(aggregateID, typeName, taker, root);
      if s.Aborts() then s else FetchAndReplay(aggregateID, typeName, s.root)
    }

    /** Loads `aggregate`: applies a snapshot when a snapper is configured
        (any error but a missing snapshot aborts), then replays the stored
        events strictly above the root's version. No events at all for a
        root still at version 0 is `AggregateNotFound`; no new events above
        a snapshot's version is success. */
    method Get(aggregateID: string, aggregate: AggregateRoot) returns (err: Outcome)
      modifies aggregate`id, aggregate`version, aggregate`events, aggregate`inputs
      ensures var r := old(Load(aggregateID, aggregate.typeName, aggregate.taker, Root(aggregate)));
        err == r.outcome && Root(aggregate) == r.root
    {
      if snapper != null {
        err := snapper.ApplySnapshot(aggregateID, aggregate);
        if err.Fail? && err.error != SnapshotNotFound {
          return err;
        }
      }
      err := ReplayStored(aggregateID, aggregate);
    }

    /** The event step of `Get`. */
    method ReplayStored(aggregateID: string, aggregate: AggregateRoot) returns (err: Outcome)
      modifies aggregate`id, aggregate`version, aggregate`inputs
      ensures var r := old(FetchAndReplay(aggregateID, aggregate.typeName, Root(aggregate)));
        err == r.outcome && Root(aggregate) == r.root
    {
      var events := eventStore.GetEvents(aggregateID, aggregate.typeName, aggregate.Version());
      var history: seq<Event> := [];
      if events.Err? {
        err := Fail(events.error);
        if err.error != NoEvents {
          return err;
        }
        if aggregate.Version() == 0 {
          return Fail(AggregateNotFound);
        }
      } else {
        history := events.value;
      }
      aggregate.BuildFromHistory(history);
      return Pass;
    }

    /** Loading replays each stored event above the root's post-snapshot
        version exactly once, in order, and no other: with a gap-free bucket
        those are the bucket's events from that version on, and the root ends
        at the bucket's last version whenever there was any. */
    lemma LoadReplaysOnlyNewerEvents(aggregateID: string, typeName: string, taker: Option<Taker>, root: RootState)
      requires eventStore.Valid()
      requires !AfterSnapshot(aggregateID, typeName, taker, root).Aborts()
      ensures var s := AfterSnapshot(aggregateID, typeName, taker, root).root;
        var bucket := eventStore.Bucket(AggregateKey(typeName, aggregateID));
        var r := Load(aggregateID, typeName, taker, root);
        && r.root.inputs == s.inputs + Transitions(if s.Current() < |bucket| then bucket[s.Current()..] else [])
        && r.root.events == s.events
        && (s.Current() < |bucket| ==> r.outcome == Pass && r.root.version == |bucket|)
        && (r.outcome.Fail? <==> s.Current() == 0 && bucket == [])
    {
      var s := AfterSnapshot(aggregateID, typeName, taker, root).root;
      var key := AggregateKey(typeName, aggregateID);
      var bucket := eventStore.Bucket(key);
      assert Contiguous(bucket) by {
        if key in eventStore.aggregateEvents {
          assert Contiguous(eventStore.aggregateEvents[key]);
        }
      }
      AfterContiguous(bucket, s.Current());
    }

    /** A fresh root (version 0, nothing pending) loaded without a snapper
        ends at the number of stored events, having received every one of
        them; with none stored it is `AggregateNotFound`. */
    lemma LoadFreshReplaysAll(aggregateID: string, typeName: string, taker: Option<Taker>, id: string)
      requires eventStore.Valid() && snapper == null
      ensures var bucket := eventStore.Bucket(AggregateKey(typeName, aggregateID));
        var r := Load(aggregateID, typeName, taker, RootState(id, 0, [], []));
        && (r.outcome == Fail(AggregateNotFound) <==> bucket == [])
        && r.root.inputs == Transitions(bucket) && r.root.version == |bucket|
    {
      LoadReplaysOnlyNewerEvents(aggregateID, typeName, taker, RootState(id, 0, [], []));
      var bucket := eventStore.Bucket(AggregateKey(typeName, aggregateID));
      assert bucket[0..] == bucket;
    }

    /** Stores the pending events, publishes them, then commits them on the
        root. A store error returns before publishing and a handler error
        returns before the commit; in both cases the root keeps its pending
        events. */
    method Save(aggregate: AggregateRoot) returns (err: Outcome, calls: seq<Delivery>)
      requires AllReasonable(aggregate.events) && eventStore.Valid()
      modifies eventStore, aggregate`version, aggregate`events
      ensures eventStore.Valid()
      ensures var stored := old(eventStore.Admission(aggregate.events));
        stored.Fail? ==>
          err == stored && calls == [] && unchanged(eventStore)
          && unchanged(aggregate`version, aggregate`events)
      ensures var stored := old(eventStore.Admission(aggregate.events));
        stored.Pass? ==>
          && Dispatch(err, calls) == Deliver(stream.Plan(old(aggregate.events),
               FormatAggregatePathType(aggregate.typeName),
               FormatAggregatePathNameID(aggregate.typeName, aggregate.id)))
          && (err.Fail? ==> unchanged(aggregate`version, aggregate`events))
          && (err.Pass? ==> aggregate.events == [] && aggregate.Version() == old(aggregate.Version()))
      ensures old(aggregate.events) != [] && err.Pass? ==>
        aggregate.version == old(aggregate.events)[|old(aggregate.events)| - 1].version
      ensures old(aggregate.events) != [] && old(eventStore.Admission(aggregate.events)).Pass? ==>
        var first := old(aggregate.events)[0];
        var key := AggregateKey(first.aggregateType, first.aggregateID);
        && eventStore.Bucket(key) == old(eventStore.Bucket(key)) + old(aggregate.events)
        && eventStore.aggregateEvents == old(eventStore.aggregateEvents)[key := old(eventStore.Bucket(key)) + old(aggregate.events)]
        && eventStore.allEvents == old(eventStore.allEvents) + old(aggregate.events)
      ensures old(aggregate.events) == [] ==> unchanged(eventStore)
    {
      var pending := aggregate.events;
      err := eventStore.SaveEvents(pending);
      if err.Fail? {
        return err, [];
      }
      err, calls := Publish(aggregate);
    }

    /** The steps of `Save` after the events are stored: publish them, and
        commit them on the root only when every handler succeeded. */
    method Publish(aggregate: AggregateRoot) returns (err: Outcome, calls: seq<Delivery>)
      modifies aggregate`version, aggregate`events
      ensures Dispatch(err, calls) == Deliver(stream.Plan(old(aggregate.events),
        FormatAggregatePathType(aggregate.typeName),
        FormatAggregatePathNameID(aggregate.typeName, aggregate.id)))
      ensures err.Fail? ==> unchanged(aggregate`version, aggregate`events)
      ensures err.Pass? ==> aggregate.events == [] && aggregate.Version() == old(aggregate.Version())
      ensures old(aggregate.events) != [] && err.Pass? ==>
        aggregate.version == old(aggregate.events)[|old(aggregate.events)| - 1].version
    {
      var published := aggregate.Events();
      err, calls := stream.Update(aggregate, published);
      if err.Fail? {
        return;
      }
      aggregate.Update();
    }

    /** Records a snapshot through the snapper, or fails when there is none. */
    method SaveSnapshot(aggregate: AggregateRoot, now: Time) returns (err: Outcome)
      modifies if snapper == null then {} else {snapper.store}
      ensures snapper == null ==> err == Fail(NoSnapShotInitialized)
      ensures snapper != null ==>
        var r := Capture(aggregate, snapper.marshaller, now);
        && err == (if r.Err? then Fail(r.error) else Pass)
        && snapper.store.store == if r.Ok? && r.value.Some?
             then old(snapper.store.store)[FormatSnapshotKey(r.value.value.id, r.value.value.typeKey) := r.value.value]
             else old(snapper.store.store)
    {
      if snapper == null {
        return Fail(NoSnapShotInitialized);
      }
      err := snapper.SaveSnapshot(aggregate, now);
    }
  }
}

=== FILE: snapper.dfy ===
/** The snapshot coordinator (snapper.go): checks, capture and storage of a
    snapshot, and hydration of an aggregate from one. */
module Snapshotting {
  import opened Errors
  import opened Events
  import opened Aggregates
  import opened Snapshots
  import opened SnapshotMemory
  import opened Stream

  /** Turns a snapshot body into bytes and back; either direction may fail. */
  datatype Marshaller = Marshaller(marshal: Body -> Result<Bytes>, unmarshal: Bytes -> Result<Body>)

  /** Whatever the marshaller encodes it decodes back unchanged. */
  ghost predicate Lossless(m: Marshaller) {
    forall b :: m.marshal(b).Ok? ==> m.unmarshal(m.marshal(b).value) == Ok(b)
  }

  /** An aggregate may be snapshotted only with an id and no pending events;
      a missing id is reported first. */
  function Validate(id: string, hasUnsavedEvents: bool): (r: Outcome)
    ensures r.Pass? <==> id != "" && !hasUnsavedEvents
    ensures id == "" ==> r == Fail(AggregateMissingID)
    ensures id != "" && hasUnsavedEvents ==> r == Fail(UnsavedEvents)
  {
    if id == "" then Fail(AggregateMissingID)
    else if hasUnsavedEvents then Fail(UnsavedEvents)
    else Pass
  }

  /** The snapshot and decoded body `ApplySnapshot` hands to the aggregate,
      or the error that stops it first: no snapshot capability, then the
      store lookup, then decoding. */
  function Restorable(taker: Option<Taker>, found: Result<Snapshot>, m: Marshaller): (r: Result<(Snapshot, Body)>)
    ensures taker.None? ==> r == Err(AggregateDoesntSupportSnapshots)
    ensures taker.Some? && found.Err? ==> r == Err(found.error)
    ensures r.Ok? <==> taker.Some? && found.Ok? && m.unmarshal(found.value.state).Ok?
    ensures taker.Some? && found.Ok? && m.unmarshal(found.value.state).Err? ==>
      r == Err(m.unmarshal(found.value.state).error)
    ensures r.Ok? ==> r.value == (found.value, m.unmarshal(found.value.state).value)
  {
    if taker.None? then Err(AggregateDoesntSupportSnapshots)
    else if found.Err? then Err(found.error)
    else
      var state := m.unmarshal(found.value.state);
      if state.Err? then Err(state.error) else Ok((found.value, state.value))
  }

  /** The record `SaveSnapshot` stores for `aggregate` at `now`, nothing when
      the aggregate has no payload to give, or the error that stops it first:
      `Validate`, then the capability, then marshalling. */
  function Capture(aggregate: AggregateRoot, m: Marshaller, now: Time): (r: Result<Option<Snapshot>>)
    reads aggregate
    ensures Validate(aggregate.id, aggregate.HasUnsavedEvents()).Fail? ==>
      r == Err(Validate(aggregate.id, aggregate.HasUnsavedEvents()).error)
    ensures Validate(aggregate.id, aggregate.HasUnsavedEvents()).Pass? && aggregate.taker.None? ==>
      r == Err(AggregateDoesntSupportSnapshots)
    ensures r == Ok(None) <==>
      Validate(aggregate.id, aggregate.HasUnsavedEvents()).Pass? && aggregate.taker.Some?
      && aggregate.taker.value.take(aggregate.inputs).None?
    ensures Validate(aggregate.id, aggregate.HasUnsavedEvents()).Pass? && aggregate.taker.Some?
            && aggregate.taker.value.take(aggregate.inputs).Some? ==>
      var buf := m.marshal(aggregate.taker.value.take(aggregate.inputs).value);
      && (buf.Err? ==> r == Err(buf.error))
      && (buf.Ok? ==> r.Ok? && r.value.Some?)
    ensures r.Ok? && r.value.Some? ==>
      var payload := aggregate.taker.value.take(aggregate.inputs);
      && !aggregate.HasUnsavedEvents() && payload.Some? && m.marshal(payload.value).Ok?
      && r.value.value == Snapshot(aggregate.id, now, FormatAggregatePathType(aggregate.typeName),
                                   m.marshal(payload.value).value, aggregate.version)
  {
    var valid := Validate(aggregate.id, aggregate.HasUnsavedEvents());
    if valid.Fail? then Err(valid.error)
    else if aggregate.taker.None? then Err(AggregateDoesntSupportSnapshots)
    else
      var payload := aggregate.taker.value.take(aggregate.inputs);
      if payload.None? then Ok(None)
      else
        var buf := m.marshal(payload.value);
        if buf.Err? then Err(buf.error)
        else Ok(Some(Snapshot(aggregate.id, now, FormatAggregatePathType(aggregate.typeName), buf.value, aggregate.Version())))
  }

  /** A snapshot captured from an aggregate is found again under that
      aggregate's id and type, and, with a lossless marshaller, hands back to
      `ApplySnapshot` the body that was taken, with the id and version that
      were recorded. */
  lemma RestoreAfterCapture(store: map<string, Snapshot>, aggregate: AggregateRoot, m: Marshaller, now: Time)
    requires Lossless(m) && aggregate.taker.Some?
    requires Capture(aggregate, m, now).Ok? && Capture(aggregate, m, now).value.Some?
    ensures var snap := Capture(aggregate, m, now).value.value;
      var saved := store[FormatSnapshotKey(snap.id, snap.typeKey) := snap];
      var r := Restorable(aggregate.taker, Stored(saved, aggregate.id, FormatAggregatePathType(aggregate.typeName)), m);
      && r.Ok? && r.value.0.id == aggregate.id && r.value.0.version == aggregate.Version()
      && Some(r.value.1) == aggregate.taker.value.take(aggregate.inputs)
  {
    var snap := Capture(aggregate, m, now).value.value;
    GetAfterSave(store, snap);
  }

  class Snapper {
    const store: Memory
    const marshaller: Marshaller

    constructor (store: Memory, marshaller: Marshaller)
      ensures this.store == store && this.marshaller == marshaller
    {
      this.store := store;
      this.marshaller := marshaller;
    }

    /** Hydrates `aggregate` from the snapshot stored for `aggregateID` and
        its type: the body is handed to the aggregate and then the root takes
        the snapshot's id and version and drops its pending events. Any
        failure is returned with the root untouched. */
    method ApplySnapshot(aggregateID: string, aggregate: AggregateRoot) returns (err: Outcome)
      modifies aggregate`id, aggregate`version, aggregate`events, aggregate`inputs
      ensures var r := Restorable(aggregate.taker,
                Stored(store.store, aggregateID, FormatAggregatePathType(aggregate.typeName)), marshaller);
        r.Err? ==> err == Fail(r.error) && unchanged(aggregate)
      ensures var r := Restorable(aggregate.taker,
                Stored(store.store, aggregateID, FormatAggregatePathType(aggregate.typeName)), marshaller);
        r.Ok? ==>
          var (snap, body) := r.value;
          var applied := aggregate.taker.value.apply(body);
          && aggregate.inputs == old(aggregate.inputs) + [Restored(body)]
          && (applied.Fail? ==> err == applied && unchanged(aggregate`id, aggregate`version, aggregate`events))
          && (applied.Pass? ==>
                err == Pass && aggregate.id == snap.id && aggregate.version == snap.version && aggregate.events == [])
    {
      if aggregate.taker.None? {
        return Fail(AggregateDoesntSupportSnapshots);
      }
      var t := FormatAggregatePathType(aggregate.typeName);
      var snap := store.Get(aggregateID, t);
      if snap.Err? {
        return Fail(snap.error);
      }
      var state := marshaller.unmarshal(snap.value.state);
      if state.Err? {
        return Fail(state.error);
      }
      aggregate.inputs := aggregate.inputs + [Restored(state.value)];
      var applied := aggregate.taker.value.apply(state.value);
      if applied.Fail? {
        return applied;
      }
      aggregate.SetInternals(snap.value.id, snap.value.version);
      return Pass;
    }

    /** Records a snapshot of `aggregate` taken at `now`: it must pass
        `Validate` and support snapshots; a missing body is a no-op; a
        marshal error is returned; otherwise the record keyed by the
        aggregate's id and type replaces any earlier one. */
    method SaveSnapshot(aggregate: AggregateRoot, now: Time) returns (err: Outcome)
      modifies store
      ensures var r := Capture(aggregate, marshaller, now);
        && err == (if r.Err? then Fail(r.error) else Pass)
        && store.store == if r.Ok? && r.value.Some?
             then old(store.store)[FormatSnapshotKey(r.value.value.id, r.value.value.typeKey) := r.value.value]
             else old(store.store)
    {
      err := Validate(aggregate.id, aggregate.HasUnsavedEvents());
      if err.Fail? {
        return;
      }
      if aggregate.taker.None? {
        return Fail(AggregateDoesntSupportSnapshots);
      }
      var payload := aggregate.taker.value.take(aggregate.inputs);
      if payload.None? {
        return Pass;
      }
      var typ := FormatAggregatePathType(aggregate.typeName);
      var buf := marshaller.marshal(payload.value);
      if buf.Err? {
        return Fail(buf.error);
      }
      var snap := Snapshot(aggregate.id, now, typ, buf.value, aggregate.Version());
      err := store.Save(snap);
    }
  }
}

=== FILE: snapshot_memory.dfy ===
/** The snapshot record (snapper.go) and the in-memory snapshot store
    (snapshot/memory/memory.go). */
module Snapshots {
  import opened Events

  /** A marshalled snapshot body. */
  type Bytes = seq<bv8>

  /** One stored snapshot: the aggregate's id, when it was taken, the
      aggregate-type key, the marshalled state and the aggregate version. */
  datatype Snapshot = Snapshot(id: string, timestamp: Time, typeKey: string, state: Bytes, version: Version)
}

module SnapshotMemory {
  import opened Errors
  import opened Snapshots

  /** The store key `id + "_" + type`; it is not injective (an id holding
      "_" can collide with another id and type). */
  function FormatSnapshotKey(id: string, typeKey: string): (k: string)
    ensures |k| == |id| + 1 + |typeKey|
    ensures k[..|id|] == id && k[|id|] == '_' && k[|id| + 1..] == typeKey
  {
    id + "_" + typeKey
  }

  /** What a lookup of `(id, typeKey)` in `store` yields. */
  function Stored(store: map<string, Snapshot>, id: string, typeKey: string): (r: Result<Snapshot>)
    ensures r.Err? <==> FormatSnapshotKey(id, typeKey) !in store
    ensures r.Err? ==> r.error == SnapshotNotFound
    ensures r.Ok? ==> r.value == store[FormatSnapshotKey(id, typeKey)]
  {
    var k := FormatSnapshotKey(id, typeKey);
    if k in store then Ok(store[k]) else Err(SnapshotNotFound)
  }

  /** After saving `ss`, looking it up by its own id and type yields it. */
  lemma GetAfterSave(store: map<string, Snapshot>, ss: Snapshot)
    ensures Stored(store[FormatSnapshotKey(ss.id, ss.typeKey) := ss], ss.id, ss.typeKey) == Ok(ss)
  {
  }

  /** Two keys collide: the store does not separate every (id, type) pair. */
  lemma KeysCanCollide()
    ensures FormatSnapshotKey("a_b", "c") == FormatSnapshotKey("a", "b_c")
  {
  }

  class Memory {
    var store: map<string, Snapshot>

    constructor ()
      ensures store == map[]
    {
      store := map[];
    }

    method Get(aggregateID: string, aggregateType: string) returns (r: Result<Snapshot>)
      ensures r == Stored(store, aggregateID, aggregateType)
    {
      var k := FormatSnapshotKey(aggregateID, aggregateType);
      if k !in store {
        return Err(SnapshotNotFound);
      }
      return Ok(store[k]);
    }

    /** Stores `ss` under its own key, replacing any earlier snapshot there;
        it never fails. */
    method Save(ss: Snapshot) returns (err: Outcome)
      modifies this
      ensures err == Pass
      ensures store == old(store)[FormatSnapshotKey(ss.id, ss.typeKey) := ss]
    {
      var k := FormatSnapshotKey(ss.id, ss.typeKey);
      store := store[k := ss];
      return Pass;
    }
  }
}
